=== FILE: README.md ===
# sakura-math scheduling core, in Dafny

This project models the scheduling and progress logic of the sakura-math
study-drill app and proves properties of it. It covers three library files:

- `lib/spaced-repetition.js`:
  - the three-level SM-2 review scheduler (`calculateNextReview`);
  - the due-problem selector with its difficulty bands, due ordering,
    prerequisite expansion and weakest-first fallback (`getDueProblems` and
    its inner `buildWithPrereqs`);
  - the group key of a source label (`getGroupKey`, `isWarmupGroup`);
  - the batch selector, which shuffles whole big-question groups, puts
    warm-up groups first and packs groups without splitting them
    (`shuffleArray`, `selectBatch`).
- `lib/storage.js`:
  - the progress-snapshot transitions: the streak, the sakura bloom
    counter, review recording with its append-only history, and the
    flashcard session, box moves and statistics;
  - the load-time migration, which rolls the current tree over at the
    bloom threshold and supplies a default flashcard section.
- `lib/leitner.js`: the Leitner box helpers. These are the due filter by box
  interval, the sort by box, the cap of 15, advance and demote, the mastered
  count and the box lookup.

## Modelling choices

- **Modules.** They follow the program's structure:
  - `Scheduler` (`scheduler.dfy`);
  - `GroupKey` (`group_key.dfy`);
  - `Grouping` (`grouping.dfy`): the group-by-key loop that both selectors
    use;
  - `DueSelection` (`due_selection.dfy`);
  - `Batch` (`batch.dfy`);
  - `Leitner` (`leitner.dfy`);
  - `Storage` (`storage.dfy`);
  - the shared `Prelude` and `Sequences` (filter, and a stable insertion
    sort).
- **Ease factor.** It is kept in integer hundredths: 2.50 is 250 and the
  floor 1.30 is 130. The ease deltas for quality 5, 3 and 1 are exactly +10,
  −14 and −54. The final `Math.round(easeFactor * 100) / 100` is therefore
  the identity.
- **Rounding.** `Math.round(x)` is `floor(x + 1/2)`; for a quotient of
  integers that is `RoundDiv`. `interval * easeFactor` becomes `RoundDiv(interval *
  ease, 100)`, and `interval * 0.7` becomes `RoundDiv(interval * 7, 10)`.
- **Dates and times.** Dates are integer day numbers. "Today" is a parameter
  of every operation that reads the clock, so `nextReviewDate` is `today +
  interval`. The time stamp written by `recordReview` is a separate
  parameter `now`.
- **Missing fields.** A missing `correctRate` reads as 0 and missing
  `prerequisites` as an empty list. A snapshot section that an older
  version did not save is an `Option`.
- **Randomness.** `Math.random` in `shuffleArray` is an injected `draw(k,
  i)`: the index chosen by the k-th random choice when position `i` is
  swapped. It is constrained only by `draw(k, i) <= i`. The warm-up shuffle
  uses draws 0, 1, …; the shuffle of the other groups continues where the
  warm-up one stopped.
- **Sorting.** `Array.prototype.sort`, which is stable, is modelled as a
  stable insertion sort. It keeps `a` in front of `b` exactly when the
  source's comparator returns a value ≤ 0. The accuracy comparator of the
  fallback compares the fractions by cross-multiplication, so it has no
  division.
- **Imperative parts.** Where the source changes things step by step, the
  model uses methods, and each method is proved equal to a specification
  function:
  - the group-by-key loop (`Grouping.GroupByKey`);
  - the three nested loops of `buildWithPrereqs` (`AddGroups`, `AddGroup`,
    `AddPrerequisites`);
  - the `problemMap` loop (`IndexById`);
  - the in-place Fisher–Yates shuffle on an array (`Batch.ShuffleArray`);
  - the packing loop with its `break` (`Batch.Pack`);
  - the migration `while` loop on the parsed snapshot
    (`Storage.ParsedProgress.Migrate`).

  The snapshot transitions of `lib/storage.js` return new objects built with
  spreads, and `lib/leitner.js` keeps no state. Both are modelled as
  functions.

### Details of the code the model keeps

- **Mode bands.** Normal keeps correct rates of 40 and above, highlevel
  rates from 20 up to but not including 40 (lib/spaced-repetition.js:62-68,
  matching the doc comment at lines 51-52).
- **Ease change for quality 1.** It is −0.54 (lib/spaced-repetition.js:26).
- **Bloom threshold.** Loading a snapshot that has a tree sets its
  threshold to 11, whatever was stored, and then turns every full 11 blooms
  of the current tree into one full bloom (lib/storage.js:33-41).
- **Prerequisites.** They are looked up in the full catalog
  (lib/spaced-repetition.js:101), so they can lie outside the mode's band
  and need not be due.

## Model

| member | source | states |
|---|---|---|
| Scheduler.RoundDiv | lib/spaced-repetition.js:16 | `Math.round` of num/den (rounding half up): the result is within one half of the exact quotient, with a tie going up. |
| Scheduler.EaseDelta | lib/spaced-repetition.js:26 | The ease change in hundredths: +10 for quality 5, 0 for 4, −14 for 3 and −54 for 1. |
| Scheduler.CalculateNextReview | lib/spaced-repetition.js:6-44 | A failing answer gives repetitions 0 and interval 1. A pass adds one repetition and sets the interval to 1, 3, or round(interval × ease) for 0, 1 or more prior repetitions. For quality 3 the interval is then damped to max(1, round(0.7 × interval)) when it exceeds 1: 3 becomes 2, 1 stays 1, and on an established record m = round(interval × ease) becomes round(0.7 m) when m > 1. The ease changes by +10/−14/−54 hundredths for quality 5/3/1 and is floored at 130. The next review is today + interval. |
| Scheduler.NextReviewIsLater | lib/spaced-repetition.js:9-36 | From a valid record, the new interval is ≥ 1 and the next review date is strictly after today. The new state is valid again: ease ≥ 1.30, and interval ≥ 1 once reviewed. |
| Scheduler.FailResets | lib/spaced-repetition.js:19-27 | A failing answer resets repetitions and interval whatever the prior record. Its result depends only on the prior ease factor. |
| Scheduler.FreshScenarios | lib/spaced-repetition.js:6-44 | A fresh record {2.5, 0, 0} gives {2.60, 1, 1} for quality 5, {2.36, 1, 1} for quality 3 and {1.96, 1, 0} for quality 1. Each is due the next day. |
| Scheduler.ReplayKeepsValid | lib/spaced-repetition.js:26-27 | No sequence of answers drives the ease factor below 1.30 or breaks the record invariant. |
| Scheduler.ConfidentPassLengthens | lib/spaced-repetition.js:16 | On an established record (≥ 2 repetitions, interval ≥ 3), a confident answer strictly lengthens the interval. |
| Scheduler.HesitantPassDamps | lib/spaced-repetition.js:9-31 | On a record with ≥ 2 repetitions, a hesitant answer (quality 3) never gives a longer interval than a confident one, and gives the same interval exactly when the confident interval is at most 1 day. |
| Scheduler.ConfidentPassesShape | lib/spaced-repetition.js:9-18 | After n confident answers from a fresh record there are n repetitions. The interval is 1 after the first and ≥ 3 from the second on. |
| Scheduler.ConfidentIntervalsGrow | lib/spaced-repetition.js:9-27 | Repeated confident answers from a fresh record give strictly growing intervals. |
| GroupKey.TrimStart | lib/spaced-repetition.js:165 | `trim`, leading side: drops exactly the leading whitespace. The result is a suffix that starts with a non-blank. |
| GroupKey.TrimEnd | lib/spaced-repetition.js:165 | `trim`, trailing side: drops exactly the trailing whitespace. The result is a prefix that ends with a non-blank. |
| GroupKey.Trim | lib/spaced-repetition.js:165 | `trim`: the result is no longer than the input, starts and ends with a non-blank (or is empty), and leaves an already trimmed string unchanged. |
| GroupKey.StripSubIndex | lib/spaced-repetition.js:165 | The regex replace: a label with no trailing `(digits)`/`（digits）` is unchanged. Otherwise the result is the label up to the opening bracket, followed in the label by digits and a closing bracket at the very end. |
| GroupKey.GetGroupKey | lib/spaced-repetition.js:164-166 | The group key is no longer than the source label, has no blank at either end, and is the trimmed label itself when the label has no trailing sub-question index. That sub-questions share a key is SubQuestionsShareKey. |
| GroupKey.IsWarmupGroup | lib/spaced-repetition.js:171-173 | /大問1$/: a key is a warm-up key exactly when it is some text followed by "大問1". |
| GroupKey.SubIndexStripped | lib/spaced-repetition.js:165 | Stripping a label followed by a bracketed, non-empty digit index gives back the label. |
| GroupKey.SubQuestionsShareKey | lib/spaced-repetition.js:164-166 | "L(1)" and "L（2）" have the same group key, trim(L). |
| GroupKey.TrimKeepsSuffix | lib/spaced-repetition.js:165 | Trimming keeps a suffix that starts and ends with a non-blank at the end of the label. |
| GroupKey.WarmupLabelKept | lib/spaced-repetition.js:171-173 | A label ending in "大問1" still ends in it after trimming, so its key is a warm-up key. |
| GroupKey.WarmupSubQuestion | lib/spaced-repetition.js:164-173 | Every sub-question "…大問1(n)" belongs to a warm-up group. |
| Grouping.WithKey | lib/spaced-repetition.js:105-114 | The list elements with a given key, in order: an element is present exactly when it is in the list with that key. |
| Grouping.GroupsOfKeys | lib/spaced-repetition.js:105-114 | The groups have distinct keys, and there is a group exactly for each key that occurs in the list. |
| Grouping.GroupsOfContents | lib/spaced-repetition.js:195-206 | Each group is non-empty and holds exactly the list's elements of its key, in list order: no group is split. |
| Grouping.GroupsOfMultiset | lib/spaced-repetition.js:195-206 | The groups together hold exactly the list's elements, as a multiset. |
| Grouping.GroupsOfOrder | lib/spaced-repetition.js:104-114 | The groups come in first-appearance order: for any two groups, the earlier one's key occurs in the list before any element with the later one's key. |
| Grouping.GroupByKey | lib/spaced-repetition.js:105-114 | The grouping loop with its key-to-group index yields exactly `GroupsOf` of the list, so its groups come in first-appearance order (GroupsOfOrder), have distinct keys and hold each key's elements in list order. |
| DueSelection.CountCorrect | lib/spaced-repetition.js:149 | The number of correct answers is at most the history length. |
| DueSelection.Accuracy | lib/spaced-repetition.js:148-153 | The accuracy is a fraction in [0, 1] with a positive denominator, and 1/2 without history. |
| DueSelection.InBand | lib/spaced-repetition.js:62-68 | The band filter, per correct rate: rates of 40 and above are in the normal band only, rates from 20 below 40 in the highlevel band only, and rates below 20 in neither. |
| DueSelection.IsDue | lib/spaced-repetition.js:72-77 | A never-reviewed problem is due. A problem is not due exactly when it has a record whose next review date is after today. |
| DueSelection.DueOrder | lib/spaced-repetition.js:78-97 | The due comparator: never-reviewed before reviewed; between two never-reviewed problems, the one in front has the higher or equal rate; between two reviewed ones, the one in front has the earlier or equal next review date. That it is a total preorder is DueOrderTotal; the sort it yields is DueOrderedProperties. |
| DueSelection.WeakerFirst | lib/spaced-repetition.js:144-155 | The fallback comparator: equal accuracies may stand in either order, a problem never answered correctly may go before anything, and anything may go before a problem always answered correctly. That it is a total preorder is WeakerFirstTotal. |
| DueSelection.DueOrderTotal | lib/spaced-repetition.js:78-97 | The due comparator is a total preorder: every pair is comparable and it is transitive. |
| DueSelection.WeakerFirstTotal | lib/spaced-repetition.js:144-155 | The accuracy comparator is a total preorder. |
| DueSelection.DueOrderedProperties | lib/spaced-repetition.js:71-97 | The due list is a permutation of the band's due problems. Never-reviewed problems come before reviewed ones, and among them higher rates come first. Reviewed problems go by earlier next review date, with ties by higher rate. |
| DueSelection.WeakestFirstProperties | lib/spaced-repetition.js:144-155 | The fallback list is a permutation of the band in ascending accuracy. |
| DueSelection.CatalogOf | lib/spaced-repetition.js:100-101 | `problemMap`: every problem's id is a key, and every entry is a listed problem stored under its own id. For every id, the entry is the last problem in the list with that id. |
| DueSelection.IndexById | lib/spaced-repetition.js:100-101 | The `forEach` loop builds exactly that map. |
| DueSelection.EmitPrereqs | lib/spaced-repetition.js:121-128 | The prerequisite step of the expansion. No contract of its own; its properties are EmitPrereqsFacts. |
| DueSelection.EmitProblem | lib/spaced-repetition.js:120-133 | One problem with its prerequisites in front. No contract of its own; its properties are EmitProblemFacts and PrereqsBeforeDependent. |
| DueSelection.EmitAll | lib/spaced-repetition.js:117-134 | The expansion of a list of problems. No contract of its own; its properties are EmitAllFacts. |
| DueSelection.Expand | lib/spaced-repetition.js:103-136 | `buildWithPrereqs` as a function: group the list, then expand it. No contract of its own; its properties are ExpandProperties and ExpandWithin. |
| DueSelection.EmitPrereqsFacts | lib/spaced-repetition.js:121-128 | Emitting prerequisites only appends and adds every prerequisite the catalog knows. It keeps `addedIds` equal to the emitted ids with no id twice, and emits only catalog entries of those prerequisites. |
| DueSelection.EmitProblemFacts | lib/spaced-repetition.js:120-133 | Emitting one problem only appends and keeps the state consistent. It adds the problem's id, and emits only the problem or its known prerequisites. |
| DueSelection.EmitAllFacts | lib/spaced-repetition.js:117-134 | Emitting a list keeps the state consistent, only appends, and adds every problem's id. Everything it emits comes from the list or the list's known prerequisites. |
| DueSelection.PrereqsBeforeDependent | lib/spaced-repetition.js:119-133 | A problem that is emitted itself, rather than skipped as already added, appears after every one of its prerequisites that the catalog knows. |
| DueSelection.ExpandProperties | lib/spaced-repetition.js:103-136 | The expansion walks the groups of `GroupsOf` (first-appearance order, GroupsOfOrder). It has no id twice and contains the id of every input problem. It holds only input problems or catalog entries of their prerequisites. |
| DueSelection.ExpandWithin | lib/spaced-repetition.js:100-136 | With the catalog built from all problems, every emitted problem is in the catalog and is either a listed problem or some problem's prerequisite. |
| DueSelection.AddPrerequisites | lib/spaced-repetition.js:122-127 | The prerequisite loop is equal to `EmitPrereqs`. |
| DueSelection.AddGroup | lib/spaced-repetition.js:120-133 | The loop over one group's problems is equal to `EmitAll` over that group. |
| DueSelection.AddGroups | lib/spaced-repetition.js:117-135 | The loop over the groups is equal to `EmitAll` over the concatenated groups. |
| DueSelection.GroupProblems | lib/spaced-repetition.js:105-114 | Groups problems by group key: the result is `GroupsOf` of the list, in first-appearance order by GroupsOfOrder. |
| DueSelection.BuildWithPrereqs | lib/spaced-repetition.js:103-136 | `buildWithPrereqs` returns exactly the expansion `Expand`, whose properties are proved above. |
| DueSelection.AnyDue | lib/spaced-repetition.js:139 | The due list is non-empty exactly when some problem of the band is due. |
| DueSelection.DueCase | lib/spaced-repetition.js:139-140 | The due branch has no duplicate ids and contains the id of every due problem of the band. It holds only such problems or their prerequisites. |
| DueSelection.PracticeCase | lib/spaced-repetition.js:143-157 | The fallback branch has no duplicate ids and contains the id of every band problem. It holds only band problems or their prerequisites. |
| DueSelection.GetDueProblems | lib/spaced-repetition.js:56-158 | `isDue` holds exactly when some band problem is due. The result is the expansion of the ordered due list, or of the weakest-first band when nothing is due. It has no duplicate ids and contains the id of every band problem that is due (of every band problem in the fallback). Every result is a listed problem that is in the band (and due when `isDue`), or else is a prerequisite. |
| Batch.ShuffledPermutes | lib/spaced-repetition.js:178-183 | Shuffling keeps the length and the multiset of elements. |
| Batch.Shuffled | lib/spaced-repetition.js:178-183 | Fisher–Yates on a sequence: the result has the same length and the same multiset of elements. |
| Batch.ShuffleArray | lib/spaced-repetition.js:178-183 | The in-place Fisher–Yates loop leaves the array equal to `Shuffled` of its old contents and consumes n − 1 draws. |
| Batch.ShuffleAndJoin | lib/spaced-repetition.js:212-217 | The warm-up groups are shuffled first, the other groups with the following draws, and the two are joined. |
| Batch.OrderInPlace | lib/spaced-repetition.js:208-217 | Splits the groups into warm-up and other groups and puts them in session order. |
| Batch.OrderGroups | lib/spaced-repetition.js:208-217 | Warm-up groups shuffled, then the other groups shuffled. No contract of its own; its properties are OrderGroupsFacts. |
| Batch.OrderGroupsFacts | lib/spaced-repetition.js:208-217 | Session ordering only permutes the groups and puts every warm-up group before every other group. |
| Batch.OrderedFacts | lib/spaced-repetition.js:195-217 | The session order holds every due problem exactly once and puts warm-up groups first. Each group is non-empty and keeps its sub-questions in input order. |
| Batch.Taken | lib/spaced-repetition.js:225-231 | The number of groups the packing loop takes is at most the number of groups; when it stops is TakenBounds. |
| Batch.Packed | lib/spaced-repetition.js:224-236 | The packed batch is non-empty when the first group is, and empty when there are no groups. |
| Batch.TakenBounds | lib/spaced-repetition.js:225-231 | The packing loop stops only when the batch holds ≥ minSize and the next group would exceed maxSize. Each group taken either fitted within maxSize or was taken while the batch was under minSize. |
| Batch.Pack | lib/spaced-repetition.js:224-236 | The packing loop with its `break` and the fallback to the first group is equal to `Packed`. |
| Batch.PackedFacts | lib/spaced-repetition.js:224-236 | Packing non-empty groups gives a non-empty batch made of one or more whole leading groups. It holds ≥ minSize problems unless it holds all of them. |
| Batch.SelectPrefix | lib/spaced-repetition.js:191-239 | A non-empty due list gives the first n ≥ 1 whole groups of the session order: all of them when at most maxSize are due, otherwise ≥ minSize problems or all. |
| Batch.Select | lib/spaced-repetition.js:191-239 | What `selectBatch` returns. No contract of its own; its properties are SelectPrefix and SelectFacts. |
| Batch.SelectFacts | lib/spaced-repetition.js:191-239 | The batch is empty exactly when nothing is due, and it holds only due problems, in whole leading groups. At most maxSize due problems give a permutation of the due list. Above maxSize it has ≥ minSize problems or is a permutation. |
| Batch.DefaultSizesFill | lib/spaced-repetition.js:191-231 | With the default sizes 5 and 10, more than ten due problems give a batch of at least five. |
| Batch.SelectBatch | lib/spaced-repetition.js:191-239 | `selectBatch` returns exactly `Select`, whose properties are proved above. |
| Leitner.LeitnerInterval | lib/leitner.js:3 | Sessions between showings: boxes 1–4 give 1, 2, 5, 10, and any other box 1. |
| Leitner.GetBoxForCard | lib/leitner.js:46-48 | The card's box, or 0 for an unseen card. |
| Leitner.IsCardDue | lib/leitner.js:8-14 | The due filter: a card never seen is due, a card in box 5 or above (mastered) is not, and a due card that was seen before was last seen in an earlier session. |
| Leitner.GetFlashcardsDue | lib/leitner.js:7-24 | Returns min(number due, 15) cards, each due and from the card list. |
| Leitner.LowerBoxFirstTotal | lib/leitner.js:17-21 | The box comparator is a total preorder. |
| Leitner.SortedDueAscending | lib/leitner.js:17-21 | The sorted due list ascends by box, with unseen cards as box 0. |
| Leitner.GetFlashcardsDueOrder | lib/leitner.js:17-23 | The result is a prefix of the sorted due list and ascends by box. No due card left out has a lower box than one taken. |
| Leitner.NewAndMasteredCards | lib/leitner.js:9-11 | A card with no box data is always due; one in box ≥ 5 never is. |
| Leitner.AdvanceCard | lib/leitner.js:26-33 | The card moves to min(box + 1, 5), or to 2 when unseen, and is seen now. Other entries are unchanged. |
| Leitner.DemoteCard | lib/leitner.js:35-40 | The card goes to box 1, seen now. Other entries are unchanged. |
| Leitner.GetMasteredCount | lib/leitner.js:42-44 | The number of entries in box ≥ 5, at most the number of entries. |
| Leitner.MovesKeepBoxesValid | lib/leitner.js:26-40 | Both moves keep every box within 1–5. For valid boxes, the box lookup gives 0 exactly for unseen cards. |
| Leitner.AdvanceMastered | lib/leitner.js:26-44 | Advancing raises the box unless it is already 5. It can add only this card to the mastered set, so the count grows by 0 or 1. |
| Leitner.DemoteMastered | lib/leitner.js:35-44 | Demoting removes exactly this card from the mastered set, and the count drops by 1 exactly when it was mastered. |
| Leitner.DemotedDueNextSession | lib/leitner.js:12-13 | A demoted card is not due in the same session and is due in the next. |
| Leitner.AdvanceDefers | lib/leitner.js:9-13 | An advanced card is due again exactly when its new box is below 5 and that box's interval has passed. |
| Storage.UpdateStreak | lib/storage.js:59-84 | Same day: unchanged. Otherwise the streak is previous + 1 after yesterday and 1 else, the last active date becomes today, and the longest streak is the max of the old longest and the new current. Nothing else changes. |
| Storage.UpdateStreakFacts | lib/storage.js:59-84 | A second update on the same day changes nothing. The longest streak never drops, and it stays ≥ the current one. |
| Storage.ConsecutiveDays | lib/storage.js:70-74 | Being active on n consecutive days after yesterday lengthens the streak by n. |
| Storage.AddBloom | lib/storage.js:86-100 | The total grows by 1. The tree grows by 1, or at the threshold resets to 0 with one more full bloom. The threshold and the rest of the snapshot are unchanged. |
| Storage.AddBloomKeepsTree | lib/storage.js:88-97 | With threshold ≥ 1, the tree stays below the threshold, and full blooms × threshold + tree counts every bloom once. |
| Storage.AddBloomsAccounting | lib/storage.js:86-100 | After n blooms the total has grown by n, the tree is below the threshold, and the trees account for all n blooms. |
| Storage.RecordReview | lib/storage.js:102-127 | The problem is rescheduled from its stored state, or {2.5, 0, 0}. The last review date is `now`, and exactly one entry {now, quality, quality ≥ 3} is appended to the history. Every other review is unchanged. |
| Storage.RecordReviewSchedules | lib/storage.js:102-127 | Recording keeps every stored state valid and leaves the problem not due until after today. |
| Storage.RecordReviewAccuracy | lib/storage.js:120-123 | The history grows by one, and its correct count grows exactly when quality ≥ 3. |
| Storage.IncrementFlashcardSession | lib/storage.js:131-139 | The session count rises by exactly 1; boxes, stats and the rest are unchanged. |
| Storage.AdvanceFlashcard | lib/storage.js:141-155 | The card's box becomes min(box + 1, 5), or 2 when unseen, seen this session. Other cards, the session count and the stats are unchanged. |
| Storage.DemoteFlashcard | lib/storage.js:157-169 | The card goes to box 1, seen this session. Other cards, the session count and the stats are unchanged. |
| Storage.FlashcardMovesAgree | lib/storage.js:141-169 | The snapshot's advance and demote act on the boxes exactly as the Leitner helpers do at the current session. |
| Storage.DemotedDueAfterNextSession | lib/storage.js:131-169 | A card demoted this session is due once the session count is incremented. |
| Storage.UpdateFlashcardStats | lib/storage.js:171-186 | Adds the session's correct and seen counts, keeps the best combo as the max, and overwrites the mastered count. Nothing else changes. |
| Storage.Rollover | lib/storage.js:33-41 | The migrated sakura section has threshold 11 and a tree below 11. The old tree equals the new tree + 11 × the increase in full blooms. |
| Storage.ParsedProgress.Migrate | lib/storage.js:32-46 | The migration loop leaves the sakura section equal to `Rollover` of the old one. A snapshot without flashcards gets the default section. Reviews and streak are unchanged. |

## Left out

- Storage I/O is not modelled: `localStorage`, `JSON.parse`/`stringify`, `saveProgress`, the `typeof window` guards and the fallback to the default snapshot on a parse error (lib/storage.js:25-31, 47-57). Migration starts from an already parsed snapshot.
- The wall clock is not modelled. Today and the review time stamp are parameters. The UTC date of `updateStreak` and the local midnight of `calculateNextReview` are not told apart, and ISO date strings are day numbers.
- `Math.random` is an injected draw function with `draw(k, i) <= i`. No distribution is modelled.
- Floating point is not modelled: the ease factor is in exact hundredths, rates and accuracies are exact. A fractional `correctRate` and IEEE rounding in `interval * easeFactor` and `interval * 0.7` are not modelled.
- Prototype-chain keys in `problemMap` and in the box and review objects are not modelled. JavaScript truthiness of stored records is modelled as key presence.
- Ids are strings. JavaScript's coercion of other key types to property names is not modelled. A stored review without a `history` field is modelled as one with an empty history, which is how `recordReview` and the fallback sort read it.
- The remote store client (lib/supabase.js) is not part of this model. No merge or reconciliation of snapshots exists in these files.
- The weighted flashcard sampler used by the flashcard page is not defined in lib/leitner.js and is not part of this model.
- The UI pages and components, the admin import loop and the image scripts are not part of this model.
- Default arguments are not modelled as such: `selectBatch`'s defaults (5 and 10) are the constants `DefaultMinSize` and `DefaultMaxSize` (used by `DefaultSizesFill`), and `getDueProblems` takes its mode as a required parameter.

=== FILE: batch.dfy ===
/**
 * selectBatch: cut one drill session out of the due list.  Problems are
 * grouped by big question, warm-up groups (big question 1) are shuffled and
 * put first, the other groups are shuffled after them, and whole groups are
 * taken until the batch holds between minSize and maxSize problems.
 *
 * Math.random is replaced by a draw function: `draw(k, i)` is the index in
 * [0, i] that the k-th random choice picks when the shuffle swaps position i.
 */
module Batch {
  import opened Sequences
  import opened GroupKey
  import opened Grouping
  import DueSelection

  const DefaultMinSize: int := 5
  const DefaultMaxSize: int := 10

  /** `Math.floor(Math.random() * (i + 1))` always lands in [0, i]. */
  ghost predicate DrawOk(draw: (nat, nat) -> nat)
  {
    forall k: nat, i: nat :: draw(k, i) <= i
  }

  function Swap<T>(s: seq<T>, i: nat, j: nat): seq<T>
    requires i < |s| && j < |s|
  {
    s[i := s[j]][j := s[i]]
  }

  /** The number of random draws a shuffle of n elements consumes. */
  function Draws(n: nat): nat
  {
    if n == 0 then 0 else n - 1
  }

  /** Fisher-Yates from position `i` down to 1, the k-th draw choosing the partner of position i. */
  function ShuffleFrom<T>(s: seq<T>, draw: (nat, nat) -> nat, k: nat, i: int): seq<T>
    requires DrawOk(draw) && i < |s|
    decreases i
  {
    if i <= 0 then s
    else ShuffleFrom(Swap(s, i, draw(k, i)), draw, k + 1, i - 1)
  }

  /** shuffleArray's effect on a sequence whose first draw is the k-th. */
  function Shuffled<T>(s: seq<T>, draw: (nat, nat) -> nat, k: nat): (r: seq<T>)
    requires DrawOk(draw)
    ensures |r| == |s| && multiset(r) == multiset(s)
  {
    ShuffleFromPermutes(s, draw, k, |s| - 1);
    ShuffleFrom(s, draw, k, |s| - 1)
  }

  lemma SwapPermutes<T>(s: seq<T>, i: nat, j: nat)
    requires i < |s| && j < |s|
    ensures |Swap(s, i, j)| == |s| && multiset(Swap(s, i, j)) == multiset(s)
  {
    var t := s[i := s[j]];
    assert multiset(t) == multiset(s) - multiset{s[i]} + multiset{s[j]};
  }

  /** Shuffling only permutes. */
  lemma {:induction false} ShuffleFromPermutes<T>(s: seq<T>, draw: (nat, nat) -> nat, k: nat, i: int)
    requires DrawOk(draw) && i < |s|
    ensures |ShuffleFrom(s, draw, k, i)| == |s|
    ensures multiset(ShuffleFrom(s, draw, k, i)) == multiset(s)
    decreases i
  {
    if i > 0 {
      SwapPermutes(s, i, draw(k, i));
      ShuffleFromPermutes(Swap(s, i, draw(k, i)), draw, k + 1, i - 1);
    }
  }

  lemma ShuffledPermutes<T>(s: seq<T>, draw: (nat, nat) -> nat, k: nat)
    requires DrawOk(draw)
    ensures |Shuffled(s, draw, k)| == |s|
    ensures multiset(Shuffled(s, draw, k)) == multiset(s)
    ensures forall x :: x in Shuffled(s, draw, k) <==> x in s
  {
    ShuffleFromPermutes(s, draw, k, |s| - 1);
    var r := Shuffled(s, draw, k);
    forall x ensures x in r <==> x in s {
      assert x in r <==> x in multiset(r);
      assert x in s <==> x in multiset(s);
    }
  }

  /** shuffleArray: in-place Fisher-Yates; returns the number of the next unused draw. */
  method ShuffleArray<T>(a: array<T>, draw: (nat, nat) -> nat, k0: nat) returns (k: nat)
    requires DrawOk(draw)
    modifies a
    ensures a[..] == Shuffled(old(a[..]), draw, k0)
    ensures k == k0 + Draws(a.Length)
  {
    k := k0;
    var i := a.Length - 1;
    ghost var target := ShuffleFrom(a[..], draw, k0, i);
    while i > 0
      invariant if a.Length == 0 then i == -1 else 0 <= i < a.Length
      invariant k == k0 + (a.Length - 1 - i)
      invariant ShuffleFrom(a[..], draw, k, i) == target
    {
      var j := draw(k, i);
      ghost var before := a[..];
      a[i], a[j] := a[j], a[i];
      assert a[..] == Swap(before, i, j);
      k := k + 1;
      i := i - 1;
    }
  }

  /** A group of big question 1, the calculation warm-up. */
  predicate IsWarmup<T>(g: Group<T>)
  {
    IsWarmupGroup(g.key)
  }

  predicate IsOther<T>(g: Group<T>)
  {
    !IsWarmupGroup(g.key)
  }

  /** Groups in session order: the shuffled warm-up groups, then the shuffled others. */
  function OrderGroups<T(!new)>(groups: seq<Group<T>>, draw: (nat, nat) -> nat): seq<Group<T>>
    requires DrawOk(draw)
  {
    var warm := Filter(groups, IsWarmup);
    Shuffled(warm, draw, 0) + Shuffled(Filter(groups, IsOther), draw, Draws(|warm|))
  }

  /** The due problems' groups in session order. */
  function Ordered(due: seq<Problem>, draw: (nat, nat) -> nat): seq<Group<Problem>>
    requires DrawOk(draw)
  {
    OrderGroups(GroupsOf(due, GetGroupKey), draw)
  }

  /**
   * How many leading groups the packing loop takes when the batch already
   * holds `size` problems: it stops at the first group that would push a
   * batch of at least minSize problems past maxSize.
   */
  function Taken(gs: seq<Group<Problem>>, size: int, minSize: int, maxSize: int): (n: nat)
    ensures n <= |gs|
  {
    if gs == [] then 0
    else if size >= minSize && size + |gs[0].items| > maxSize then 0
    else 1 + Taken(gs[1..], size + |gs[0].items|, minSize, maxSize)
  }

  /** The packed batch, falling back to the first group when nothing was taken. */
  function Packed(gs: seq<Group<Problem>>, minSize: int, maxSize: int): (r: seq<Problem>)
    ensures gs != [] && gs[0].items != [] ==> r != []
    ensures r == [] || gs != []
  {
    var b := Flatten(gs[..Taken(gs, 0, minSize, maxSize)]);
    if b == [] && |gs| > 0 then gs[0].items else b
  }

  /** What selectBatch returns. */
  function Select(due: seq<Problem>, minSize: int, maxSize: int, draw: (nat, nat) -> nat): seq<Problem>
    requires DrawOk(draw)
  {
    if due == [] then []
    else if |due| <= maxSize then Flatten(Ordered(due, draw))
    else Packed(Ordered(due, draw), minSize, maxSize)
  }

  lemma TakenStep(gs: seq<Group<Problem>>, i: nat, size: int, minSize: int, maxSize: int)
    requires i < |gs|
    ensures size >= minSize && size + |gs[i].items| > maxSize ==> Taken(gs[i..], size, minSize, maxSize) == 0
    ensures !(size >= minSize && size + |gs[i].items| > maxSize) ==>
              Taken(gs[i..], size, minSize, maxSize) == 1 + Taken(gs[i + 1..], size + |gs[i].items|, minSize, maxSize)
  {
    assert gs[i..][0] == gs[i];
    assert gs[i..][1..] == gs[i + 1..];
  }

  /** A fresh array holding `s`, as the array `filter` returns. */
  method ToArray<T>(s: seq<T>) returns (a: array<T>)
    ensures fresh(a) && a[..] == s
  {
    a := new T[|s|](i requires 0 <= i < |s| => s[i]);
  }

  /** Shuffles the warm-up groups, then the other groups, each in its own array, and joins them. */
  method ShuffleAndJoin<T>(ws: seq<Group<T>>, os: seq<Group<T>>, draw: (nat, nat) -> nat) returns (ordered: seq<Group<T>>)
    requires DrawOk(draw)
    ensures ordered == Shuffled(ws, draw, 0) + Shuffled(os, draw, Draws(|ws|))
  {
    var warm := ToArray(ws);
    var other := ToArray(os);
    var k := ShuffleArray(warm, draw, 0);
    ghost var sw := warm[..];
    k := ShuffleArray(other, draw, k);
    assert warm[..] == sw;
    ordered := warm[..] + other[..];
  }

  /** Splits the groups into warm-up and other groups and puts them in session order. */
  method OrderInPlace<T(!new)>(groups: seq<Group<T>>, draw: (nat, nat) -> nat) returns (ordered: seq<Group<T>>)
    requires DrawOk(draw)
    ensures ordered == OrderGroups(groups, draw)
  {
    var ws := Filter(groups, IsWarmup);
    var os := Filter(groups, IsOther);
    ordered := ShuffleAndJoin(ws, os, draw);
  }

  /** The packing loop: whole groups until the next one would push a batch of at least minSize past maxSize; at least one group. */
  method Pack(ordered: seq<Group<Problem>>, minSize: int, maxSize: int) returns (batch: seq<Problem>)
    ensures batch == Packed(ordered, minSize, maxSize)
  {
    batch := [];
    var i := 0;
    while i < |ordered|
      invariant 0 <= i <= |ordered|
      invariant batch == Flatten(ordered[..i])
      invariant Taken(ordered, 0, minSize, maxSize) == i + Taken(ordered[i..], |batch|, minSize, maxSize)
    {
      TakenStep(ordered, i, |batch|, minSize, maxSize);
      if |batch| >= minSize && |batch| + |ordered[i].items| > maxSize {
        break;
      }
      assert ordered[..i + 1] == ordered[..i] + [ordered[i]];
      FlattenSnoc(ordered[..i], ordered[i]);
      batch := batch + ordered[i].items;
      i := i + 1;
    }
    if |batch| == 0 && |ordered| > 0 {
      batch := ordered[0].items;
    }
  }

  /**
   * selectBatch(dueProblems, minSize, maxSize) with the random source `draw`.
   */
  method SelectBatch(due: seq<Problem>, minSize: int, maxSize: int, draw: (nat, nat) -> nat)
    returns (batch: seq<Problem>)
    requires DrawOk(draw)
    ensures batch == Select(due, minSize, maxSize, draw)
  {
    if |due| == 0 {
      return [];
    }
    var groups := DueSelection.GroupProblems(due);
    var ordered := OrderInPlace(groups, draw);
    if |due| <= maxSize {
      return Flatten(ordered);
    }
    batch := Pack(ordered, minSize, maxSize);
  }

  /** Ordering only permutes the groups, and puts every warm-up group before every other group. */
  lemma OrderGroupsFacts<T(!new)>(groups: seq<Group<T>>, draw: (nat, nat) -> nat)
    requires DrawOk(draw)
    ensures multiset(OrderGroups(groups, draw)) == multiset(groups)
    ensures forall i, j :: 0 <= i < j < |OrderGroups(groups, draw)| && IsWarmup(OrderGroups(groups, draw)[j]) ==>
              IsWarmup(OrderGroups(groups, draw)[i])
  {
    var warm := Filter(groups, IsWarmup);
    var other := Filter(groups, IsOther);
    var sw, so := Shuffled(warm, draw, 0), Shuffled(other, draw, Draws(|warm|));
    ShuffledPermutes(warm, draw, 0);
    ShuffledPermutes(other, draw, Draws(|warm|));
    var ordered := sw + so;
    assert multiset(ordered) == multiset(warm) + multiset(other);
    forall g: Group<T> ensures multiset(ordered)[g] == multiset(groups)[g] {
      if IsWarmup(g) {
        assert multiset(other)[g] == 0;
      } else {
        assert multiset(warm)[g] == 0;
      }
    }
    assert multiset(ordered) == multiset(groups);
    forall j | |sw| <= j < |ordered| ensures !IsWarmup(ordered[j]) {
      assert ordered[j] in so;
    }
    forall i | 0 <= i < |sw| ensures IsWarmup(ordered[i]) {
      assert ordered[i] in sw;
    }
  }

  /**
   * The session order keeps every due problem exactly once, puts every
   * warm-up group before every other group, and keeps each group's
   * sub-questions in their original order.
   */
  lemma OrderedFacts(due: seq<Problem>, draw: (nat, nat) -> nat)
    requires DrawOk(draw)
    ensures multiset(Flatten(Ordered(due, draw))) == multiset(due)
    ensures forall i, j :: 0 <= i < j < |Ordered(due, draw)| && IsWarmup(Ordered(due, draw)[j]) ==>
              IsWarmup(Ordered(due, draw)[i])
    ensures forall g :: g in Ordered(due, draw) ==> g.items != [] && g.items == WithKey(due, GetGroupKey, g.key)
  {
    var groups := GroupsOf(due, GetGroupKey);
    var ordered := OrderGroups(groups, draw);
    OrderGroupsFacts(groups, draw);
    FlattenMultiset(ordered, groups);
    GroupsOfMultiset(due, GetGroupKey);
    GroupsOfContents(due, GetGroupKey);
    forall g | g in ordered ensures g.items != [] && g.items == WithKey(due, GetGroupKey, g.key) {
      assert g in multiset(groups);
      var t :| 0 <= t < |groups| && groups[t] == g;
    }
  }

  lemma FlattenPrefixStep(gs: seq<Group<Problem>>, n: nat)
    requires n < |gs|
    ensures Flatten(gs[..n + 1]) == gs[0].items + Flatten(gs[1..][..n])
  {
    assert gs[..n + 1][1..] == gs[1..][..n];
  }

  /**
   * The packing loop stops only once the batch holds at least minSize
   * problems and the next group would push it past maxSize; the last group
   * it took either fitted within maxSize or was taken while the batch was
   * still under minSize.
   */
  lemma {:induction false} TakenBounds(gs: seq<Group<Problem>>, size: int, minSize: int, maxSize: int)
    ensures var n := Taken(gs, size, minSize, maxSize);
      n < |gs| ==> size + |Flatten(gs[..n])| >= minSize && size + |Flatten(gs[..n])| + |gs[n].items| > maxSize
    ensures var n := Taken(gs, size, minSize, maxSize);
      n > 0 ==> size + |Flatten(gs[..n])| <= maxSize || size + |Flatten(gs[..n - 1])| < minSize
    decreases |gs|
  {
    var n := Taken(gs, size, minSize, maxSize);
    if gs != [] && n > 0 {
      var size' := size + |gs[0].items|;
      TakenBounds(gs[1..], size', minSize, maxSize);
      FlattenPrefixStep(gs, n - 1);
      if n > 1 {
        FlattenPrefixStep(gs, n - 2);
      }
    }
  }

  lemma FlattenPrefixMembers(gs: seq<Group<Problem>>, n: nat)
    requires n <= |gs|
    ensures forall x :: x in Flatten(gs[..n]) ==> x in Flatten(gs)
  {
    assert gs == gs[..n] + gs[n..];
    FlattenConcat(gs[..n], gs[n..]);
  }

  lemma FlattenNonEmpty(gs: seq<Group<Problem>>)
    requires gs != [] && gs[0].items != []
    ensures Flatten(gs) != []
  {
  }

  /**
   * Packing groups that are all non-empty gives a non-empty batch made of
   * one or more whole leading groups, holding at least minSize problems
   * unless it holds all of them.
   */
  lemma PackedFacts(gs: seq<Group<Problem>>, minSize: int, maxSize: int)
    requires gs != [] && forall g :: g in gs ==> g.items != []
    ensures exists n :: 1 <= n <= |gs| && Packed(gs, minSize, maxSize) == Flatten(gs[..n])
    ensures Packed(gs, minSize, maxSize) != []
    ensures |Packed(gs, minSize, maxSize)| >= minSize || Packed(gs, minSize, maxSize) == Flatten(gs)
  {
    var n := Taken(gs, 0, minSize, maxSize);
    TakenBounds(gs, 0, minSize, maxSize);
    assert gs[0] in gs;
    if n == 0 {
      FlattenPrefixStep(gs, 0);
      assert gs[1..][..0] == [];
      assert Packed(gs, minSize, maxSize) == Flatten(gs[..1]);
    } else {
      FlattenPrefixStep(gs, n - 1);
      if n == |gs| {
        assert gs[..n] == gs;
      }
    }
  }

  /**
   * The batch of a non-empty due list: the first n >= 1 groups of the session
   * order, all of them when at most maxSize problems are due, and otherwise
   * at least minSize problems or all of them.
   */
  lemma SelectPrefix(due: seq<Problem>, minSize: int, maxSize: int, draw: (nat, nat) -> nat)
    requires DrawOk(draw) && due != []
    ensures Select(due, minSize, maxSize, draw) != []
    ensures exists n :: 1 <= n <= |Ordered(due, draw)| && Select(due, minSize, maxSize, draw) == Flatten(Ordered(due, draw)[..n])
    ensures |due| <= maxSize ==> Select(due, minSize, maxSize, draw) == Flatten(Ordered(due, draw))
    ensures |due| > maxSize ==>
              (|Select(due, minSize, maxSize, draw)| >= minSize || Select(due, minSize, maxSize, draw) == Flatten(Ordered(due, draw)))
  {
    var ordered := Ordered(due, draw);
    OrderedFacts(due, draw);
    assert due[0] in multiset(Flatten(ordered));
    assert ordered != [];
    if |due| <= maxSize {
      assert ordered[..|ordered|] == ordered;
      assert ordered[0] in ordered;
      FlattenNonEmpty(ordered);
    } else {
      PackedFacts(ordered, minSize, maxSize);
    }
  }

  /**
   * The batch is empty exactly when nothing is due; it holds only due
   * problems, made of whole leading groups of the session order; when at
   * most maxSize problems are due it holds all of them; otherwise it holds
   * at least minSize problems or all of them.
   */
  lemma SelectFacts(due: seq<Problem>, minSize: int, maxSize: int, draw: (nat, nat) -> nat)
    requires DrawOk(draw)
    ensures Select(due, minSize, maxSize, draw) == [] <==> due == []
    ensures forall x :: x in Select(due, minSize, maxSize, draw) ==> x in due
    ensures due != [] ==>
              exists n :: 1 <= n <= |Ordered(due, draw)| && Select(due, minSize, maxSize, draw) == Flatten(Ordered(due, draw)[..n])
    ensures |due| <= maxSize ==> multiset(Select(due, minSize, maxSize, draw)) == multiset(due)
    ensures |due| > maxSize ==>
              (|Select(due, minSize, maxSize, draw)| >= minSize || multiset(Select(due, minSize, maxSize, draw)) == multiset(due))
  {
    if due != [] {
      var ordered := Ordered(due, draw);
      var r := Select(due, minSize, maxSize, draw);
      SelectPrefix(due, minSize, maxSize, draw);
      OrderedFacts(due, draw);
      var n :| 1 <= n <= |ordered| && r == Flatten(ordered[..n]);
      FlattenPrefixMembers(ordered, n);
      forall x | x in r ensures x in due {
        assert x in multiset(Flatten(ordered));
      }
    }
  }

  /**
   * With selectBatch's default sizes (at least 5, at most 10), a batch drawn
   * from more than ten due problems holds at least five of them.
   */
  lemma DefaultSizesFill(due: seq<Problem>, draw: (nat, nat) -> nat)
    requires DrawOk(draw) && |due| > DefaultMaxSize
    ensures |Select(due, DefaultMinSize, DefaultMaxSize, draw)| >= DefaultMinSize
  {
    SelectFacts(due, DefaultMinSize, DefaultMaxSize, draw);
  }
}

=== FILE: due_selection.dfy ===
/**
 * getDueProblems: which problems to drill next.  Problems are filtered by the
 * difficulty band of the mode, the due ones are ordered, and the list is
 * expanded group by group with each problem's prerequisites in front of it.
 * When nothing is due, every problem of the band is offered, weakest first.
 */
module DueSelection {
  import opened Sequences
  import opened Scheduler
  import opened GroupKey
  import opened Grouping

  datatype Mode = Normal | HighLevel

  /** The result: the problems to offer, and whether they are due reviews (`true`) or free practice. */
  datatype DueResult = DueResult(problems: seq<Problem>, isDue: bool)

  /** The difficulty band: normal keeps rates of 40 and above, highlevel rates in [20, 40). */
  predicate InBand(p: Problem, mode: Mode): (b: bool)
    ensures b ==> p.correctRate >= 20
    ensures p.correctRate >= 40 ==> (b <==> mode.Normal?)
    ensures 20 <= p.correctRate < 40 ==> (b <==> mode.HighLevel?)
  {
    if mode == HighLevel then 20 <= p.correctRate < 40 else p.correctRate >= 40
  }

  /** Never reviewed, or its next review date is today or earlier. */
  predicate IsDue(p: Problem, reviews: map<string, ReviewRecord>, today: Day): (due: bool)
    ensures p.id !in reviews ==> due
    ensures !due <==> p.id in reviews && today < reviews[p.id].nextReviewDate
  {
    p.id !in reviews || reviews[p.id].nextReviewDate <= today
  }

  /**
   * The due-list comparator, as "a may stay in front of b": never-reviewed
   * problems first, those by descending correct rate; reviewed problems by
   * ascending next review date, ties by descending correct rate.
   */
  predicate DueOrder(reviews: map<string, ReviewRecord>, a: Problem, b: Problem): (first: bool)
    ensures a.id !in reviews && b.id in reviews ==> first
    ensures a.id in reviews && b.id !in reviews ==> !first
    ensures first && a.id !in reviews && b.id !in reviews ==> a.correctRate >= b.correctRate
    ensures first && a.id in reviews && b.id in reviews ==>
              reviews[a.id].nextReviewDate <= reviews[b.id].nextReviewDate
  {
    if (a.id in reviews) != (b.id in reviews) then a.id !in reviews
    else if a.id !in reviews then a.correctRate >= b.correctRate
    else if reviews[a.id].nextReviewDate != reviews[b.id].nextReviewDate then
      reviews[a.id].nextReviewDate < reviews[b.id].nextReviewDate
    else a.correctRate >= b.correctRate
  }

  /** The number of correct answers in a history. */
  function CountCorrect(h: seq<HistoryEntry>): (n: nat)
    ensures n <= |h|
  {
    if h == [] then 0 else CountCorrect(h[..|h| - 1]) + (if h[|h| - 1].correct then 1 else 0)
  }

  /** A problem's answer accuracy as numerator and positive denominator; 1/2 when it has no history. */
  function Accuracy(reviews: map<string, ReviewRecord>, p: Problem): (r: (int, int))
    ensures r.1 > 0 && 0 <= r.0 <= r.1
  {
    if p.id in reviews && |reviews[p.id].history| > 0 then
      (CountCorrect(reviews[p.id].history), |reviews[p.id].history|)
    else (1, 2)
  }

  /** The fallback comparator: ascending accuracy (weakest first). */
  predicate WeakerFirst(reviews: map<string, ReviewRecord>, a: Problem, b: Problem): (first: bool)
    ensures Accuracy(reviews, a) == Accuracy(reviews, b) ==> first
    ensures Accuracy(reviews, a).0 == 0 ==> first
    ensures Accuracy(reviews, b).0 == Accuracy(reviews, b).1 ==> first
  {
    Accuracy(reviews, a).0 * Accuracy(reviews, b).1 <= Accuracy(reviews, b).0 * Accuracy(reviews, a).1
  }

  lemma DueOrderTotal(reviews: map<string, ReviewRecord>)
    ensures TotalPreorder((a, b) => DueOrder(reviews, a, b))
  {
  }

  lemma FractionsTransitive(na: int, da: int, nb: int, db: int, nc: int, dc: int)
    requires da > 0 && db > 0 && dc > 0
    requires na * db <= nb * da && nb * dc <= nc * db
    ensures na * dc <= nc * da
  {
    assert na * db * dc <= nb * da * dc;
    assert nb * dc * da <= nc * db * da;
    assert (na * dc) * db <= (nc * da) * db;
  }

  lemma WeakerFirstTotal(reviews: map<string, ReviewRecord>)
    ensures TotalPreorder((a, b) => WeakerFirst(reviews, a, b))
  {
    forall a, b, c | WeakerFirst(reviews, a, b) && WeakerFirst(reviews, b, c)
      ensures WeakerFirst(reviews, a, c)
    {
      var (na, da) := Accuracy(reviews, a);
      var (nb, db) := Accuracy(reviews, b);
      var (nc, dc) := Accuracy(reviews, c);
      FractionsTransitive(na, da, nb, db, nc, dc);
    }
  }

  /** The problems of the mode's band, in catalog order. */
  function Band(problems: seq<Problem>, mode: Mode): seq<Problem>
  {
    Filter(problems, p => InBand(p, mode))
  }

  /** The due problems of the band, in catalog order. */
  function DueOf(band: seq<Problem>, reviews: map<string, ReviewRecord>, today: Day): seq<Problem>
  {
    Filter(band, p => IsDue(p, reviews, today))
  }

  /** The due problems sorted by the due comparator. */
  function DueOrdered(band: seq<Problem>, reviews: map<string, ReviewRecord>, today: Day): seq<Problem>
  {
    SortBy(DueOf(band, reviews, today), (a, b) => DueOrder(reviews, a, b))
  }

  /** The whole band sorted weakest first. */
  function WeakestFirst(band: seq<Problem>, reviews: map<string, ReviewRecord>): seq<Problem>
  {
    SortBy(band, (a, b) => WeakerFirst(reviews, a, b))
  }

  /** The ordering guarantees of the due list. */
  lemma DueOrderedProperties(band: seq<Problem>, reviews: map<string, ReviewRecord>, today: Day)
    ensures multiset(DueOrdered(band, reviews, today)) == multiset(DueOf(band, reviews, today))
    ensures forall i, j :: 0 <= i < j < |DueOrdered(band, reviews, today)| ==>
              var a, b := DueOrdered(band, reviews, today)[i], DueOrdered(band, reviews, today)[j];
              && (a.id in reviews ==> b.id in reviews)
              && (a.id !in reviews && b.id !in reviews ==> a.correctRate >= b.correctRate)
              && (a.id in reviews && b.id in reviews ==>
                    && reviews[a.id].nextReviewDate <= reviews[b.id].nextReviewDate
                    && (reviews[a.id].nextReviewDate == reviews[b.id].nextReviewDate ==> a.correctRate >= b.correctRate))
  {
    DueOrderTotal(reviews);
    SortBySorted(DueOf(band, reviews, today), (a, b) => DueOrder(reviews, a, b));
  }

  /** The fallback list is the band sorted by ascending accuracy. */
  lemma WeakestFirstProperties(band: seq<Problem>, reviews: map<string, ReviewRecord>)
    ensures multiset(WeakestFirst(band, reviews)) == multiset(band)
    ensures forall i, j :: 0 <= i < j < |WeakestFirst(band, reviews)| ==>
              WeakerFirst(reviews, WeakestFirst(band, reviews)[i], WeakestFirst(band, reviews)[j])
  {
    WeakerFirstTotal(reviews);
    SortBySorted(band, (a, b) => WeakerFirst(reviews, a, b));
  }

  // ---------------------------------------------------------------------
  // The catalog index (problemMap)

  /** Every catalog entry is stored under its own id. */
  predicate CatalogOk(catalog: map<string, Problem>)
  {
    forall q :: q in catalog ==> catalog[q].id == q
  }

  /** No problem after position `i` has the id of problems[i]. */
  predicate LastWithId(problems: seq<Problem>, i: nat)
    requires i < |problems|
  {
    forall j :: i < j < |problems| ==> problems[j].id != problems[i].id
  }

  /** Every problem that is the last with its id is the catalog's entry for that id. */
  predicate LastWins(problems: seq<Problem>, catalog: map<string, Problem>)
  {
    forall i :: 0 <= i < |problems| && LastWithId(problems, i) ==>
      problems[i].id in catalog && catalog[problems[i].id] == problems[i]
  }

  lemma LastWinsSnoc(init: seq<Problem>, last: Problem, catalog: map<string, Problem>)
    requires LastWins(init, catalog)
    ensures LastWins(init + [last], catalog[last.id := last])
  {
    var problems := init + [last];
    var c := catalog[last.id := last];
    forall i | 0 <= i < |problems| && LastWithId(problems, i)
      ensures problems[i].id in c && c[problems[i].id] == problems[i]
    {
      if i < |init| {
        assert problems[i] == init[i];
        assert problems[|init|] == last;
        forall j | i < j < |init| ensures init[j].id != init[i].id {
          assert init[j] == problems[j];
        }
        assert LastWithId(init, i);
      }
    }
  }

  /** `problems.forEach(p => problemMap[p.id] = p)`: later problems overwrite earlier ones with the same id. */
  function CatalogOf(problems: seq<Problem>): (catalog: map<string, Problem>)
    ensures CatalogOk(catalog)
    ensures forall p :: p in problems ==> p.id in catalog
    ensures forall q :: q in catalog ==> catalog[q] in problems
    ensures |problems| > 0 ==> catalog[problems[|problems| - 1].id] == problems[|problems| - 1]
    ensures LastWins(problems, catalog)
  {
    if problems == [] then map[]
    else
      var init := problems[..|problems| - 1];
      var last := problems[|problems| - 1];
      assert problems == init + [last];
      LastWinsSnoc(init, last, CatalogOf(init));
      CatalogOf(init)[last.id := last]
  }

  /** The forEach loop that builds problemMap. */
  method IndexById(problems: seq<Problem>) returns (catalog: map<string, Problem>)
    ensures catalog == CatalogOf(problems)
  {
    catalog := map[];
    for i := 0 to |problems|
      invariant catalog == CatalogOf(problems[..i])
    {
      assert problems[..i + 1][..i] == problems[..i];
      catalog := catalog[problems[i].id := problems[i]];
    }
    assert problems[..|problems|] == problems;
  }

  // ---------------------------------------------------------------------
  // Prerequisite expansion (buildWithPrereqs)

  /** The state of the expansion: the ids added so far and the emitted list. */
  datatype Emission = Emission(added: set<string>, out: seq<Problem>)

  const Start: Emission := Emission({}, [])

  function Ids(out: seq<Problem>): set<string>
  {
    set x | x in out :: x.id
  }

  predicate NoDupIds(out: seq<Problem>)
  {
    forall i, j :: 0 <= i < j < |out| ==> out[i].id != out[j].id
  }

  /** `added` is exactly the ids of `out`, and `out` has no id twice. */
  predicate Consistent(st: Emission)
  {
    st.added == Ids(st.out) && NoDupIds(st.out)
  }

  /** Emits the prerequisites `qs` not yet added that the catalog knows, in order. */
  function EmitPrereqs(st: Emission, qs: seq<string>, catalog: map<string, Problem>): Emission
  {
    if qs == [] then st
    else
      var st' := EmitPrereqs(st, qs[..|qs| - 1], catalog);
      var q := qs[|qs| - 1];
      if q !in st'.added && q in catalog then Emission(st'.added + {q}, st'.out + [catalog[q]]) else st'
  }

  /** Emits a problem's prerequisites, then the problem itself unless its id is already added. */
  function EmitProblem(st: Emission, p: Problem, catalog: map<string, Problem>): Emission
  {
    var st' := EmitPrereqs(st, p.prerequisites, catalog);
    if p.id !in st'.added then Emission(st'.added + {p.id}, st'.out + [p]) else st'
  }

  /** Emits every problem of `ps` in order. */
  function EmitAll(st: Emission, ps: seq<Problem>, catalog: map<string, Problem>): Emission
  {
    if ps == [] then st
    else EmitProblem(EmitAll(st, ps[..|ps| - 1], catalog), ps[|ps| - 1], catalog)
  }

  /** The result of buildWithPrereqs: group by key, then emit group after group. */
  function Expand(list: seq<Problem>, catalog: map<string, Problem>): seq<Problem>
  {
    EmitAll(Start, Flatten(GroupsOf(list, GetGroupKey)), catalog).out
  }

  lemma PushConsistent(st: Emission, x: Problem)
    requires Consistent(st) && x.id !in st.added
    ensures Consistent(Emission(st.added + {x.id}, st.out + [x]))
  {
    var out := st.out + [x];
    assert Ids(out) == Ids(st.out) + {x.id} by {
      forall y | y in out ensures y in st.out || y == x { }
      forall y | y in st.out ensures y in out { }
    }
    forall i, j | 0 <= i < j < |out| ensures out[i].id != out[j].id {
      if j == |out| - 1 {
        assert out[i] in st.out;
      }
    }
  }

  /** `r` extends `st`: the emitted list only grows at its end and no added id is forgotten. */
  predicate Extends(st: Emission, r: Emission)
  {
    st.added <= r.added && |st.out| <= |r.out| && r.out[..|st.out|] == st.out
  }

  lemma EmitPrereqsSnoc(st: Emission, qs: seq<string>, q: string, catalog: map<string, Problem>)
    ensures EmitPrereqs(st, qs + [q], catalog) ==
      var st' := EmitPrereqs(st, qs, catalog);
      if q !in st'.added && q in catalog then Emission(st'.added + {q}, st'.out + [catalog[q]]) else st'
  {
    assert (qs + [q])[..|qs|] == qs;
  }

  lemma EmitAllSnoc(st: Emission, ps: seq<Problem>, p: Problem, catalog: map<string, Problem>)
    ensures EmitAll(st, ps + [p], catalog) == EmitProblem(EmitAll(st, ps, catalog), p, catalog)
  {
    assert (ps + [p])[..|ps|] == ps;
  }

  /** `x` is the catalog entry of one of the prerequisites `qs`. */
  predicate FromPrereqs(x: Problem, qs: seq<string>, catalog: map<string, Problem>)
  {
    exists q :: q in qs && q in catalog && x == catalog[q]
  }

  /** Emitting prerequisites keeps the state consistent, only appends, and adds every known prerequisite. */
  lemma {:induction false} EmitPrereqsFacts(st: Emission, qs: seq<string>, catalog: map<string, Problem>)
    requires Consistent(st) && CatalogOk(catalog)
    ensures Consistent(EmitPrereqs(st, qs, catalog))
    ensures Extends(st, EmitPrereqs(st, qs, catalog))
    ensures forall q :: q in qs && q in catalog ==> q in EmitPrereqs(st, qs, catalog).added
    ensures forall m :: |st.out| <= m < |EmitPrereqs(st, qs, catalog).out| ==>
              FromPrereqs(EmitPrereqs(st, qs, catalog).out[m], qs, catalog)
    decreases |qs|
  {
    if qs != [] {
      var init := qs[..|qs| - 1];
      var q := qs[|qs| - 1];
      assert qs == init + [q];
      EmitPrereqsFacts(st, init, catalog);
      var st' := EmitPrereqs(st, init, catalog);
      var r := EmitPrereqs(st, qs, catalog);
      assert q in qs;
      forall x | FromPrereqs(x, init, catalog) ensures FromPrereqs(x, qs, catalog) {
        var q' :| q' in init && q' in catalog && x == catalog[q'];
        assert q' in qs;
      }
      if q !in st'.added && q in catalog {
        PushConsistent(st', catalog[q]);
        assert r.out == st'.out + [catalog[q]];
        forall m | |st.out| <= m < |r.out| ensures FromPrereqs(r.out[m], qs, catalog) {
          if m < |st'.out| {
            assert r.out[m] == st'.out[m];
          } else {
            assert r.out[m] == catalog[q];
          }
        }
      } else {
        assert r == st';
      }
    } else {
      assert EmitPrereqs(st, qs, catalog) == st;
    }
  }

  /** Emitting one problem keeps the state consistent, only appends, adds the problem's id, and emits only it or its known prerequisites. */
  lemma EmitProblemFacts(st: Emission, p: Problem, catalog: map<string, Problem>)
    requires Consistent(st) && CatalogOk(catalog)
    ensures Consistent(EmitProblem(st, p, catalog))
    ensures Extends(st, EmitProblem(st, p, catalog))
    ensures p.id in EmitProblem(st, p, catalog).added
    ensures forall m :: |st.out| <= m < |EmitProblem(st, p, catalog).out| ==>
              FromProblem(EmitProblem(st, p, catalog).out[m], p, catalog)
  {
    EmitPrereqsFacts(st, p.prerequisites, catalog);
    var st' := EmitPrereqs(st, p.prerequisites, catalog);
    var r := EmitProblem(st, p, catalog);
    if p.id !in st'.added {
      PushConsistent(st', p);
    }
    forall m | |st.out| <= m < |r.out| ensures FromProblem(r.out[m], p, catalog) {
      if m < |st'.out| {
        assert r.out[m] == st'.out[m];
      }
    }
  }

  /** `x` is the problem `p` or the catalog entry of one of its prerequisites. */
  predicate FromProblem(x: Problem, p: Problem, catalog: map<string, Problem>)
  {
    x == p || FromPrereqs(x, p.prerequisites, catalog)
  }

  /** `x` is a problem of `ps`, or the catalog entry of a prerequisite of one. */
  predicate FromList(x: Problem, ps: seq<Problem>, catalog: map<string, Problem>)
  {
    exists p :: p in ps && FromProblem(x, p, catalog)
  }

  /** Expansion keeps the state consistent, only appends, adds every problem's id, and emits only those problems or their known prerequisites. */
  lemma {:induction false} EmitAllFacts(st: Emission, ps: seq<Problem>, catalog: map<string, Problem>)
    requires Consistent(st) && CatalogOk(catalog)
    ensures Consistent(EmitAll(st, ps, catalog))
    ensures Extends(st, EmitAll(st, ps, catalog))
    ensures forall p :: p in ps ==> p.id in EmitAll(st, ps, catalog).added
    ensures forall m :: |st.out| <= m < |EmitAll(st, ps, catalog).out| ==> FromList(EmitAll(st, ps, catalog).out[m], ps, catalog)
    decreases |ps|
  {
    if ps != [] {
      var init := ps[..|ps| - 1];
      var p := ps[|ps| - 1];
      assert ps == init + [p];
      EmitAllFacts(st, init, catalog);
      var st' := EmitAll(st, init, catalog);
      EmitProblemFacts(st', p, catalog);
      var r := EmitAll(st, ps, catalog);
      assert r == EmitProblem(st', p, catalog);
      forall m | |st.out| <= m < |r.out| ensures FromList(r.out[m], ps, catalog) {
        if m < |st'.out| {
          assert r.out[m] == st'.out[m];
          var p' :| p' in init && FromProblem(st'.out[m], p', catalog);
          assert p' in ps;
        } else {
          assert FromProblem(r.out[m], p, catalog);
        }
      }
      forall p' | p' in ps ensures p'.id in r.added {
        if p' in init {
          assert p'.id in st'.added;
        }
      }
    }
  }

  /** Expanding a prefix yields a prefix of the expansion. */
  lemma {:induction false} EmitAllPrefix(st: Emission, ps: seq<Problem>, i: nat, catalog: map<string, Problem>)
    requires Consistent(st) && CatalogOk(catalog) && i <= |ps|
    ensures Extends(EmitAll(st, ps[..i], catalog), EmitAll(st, ps, catalog))
    decreases |ps|
  {
    if i < |ps| {
      var init := ps[..|ps| - 1];
      assert ps == init + [ps[|ps| - 1]];
      assert init[..i] == ps[..i];
      EmitAllPrefix(st, init, i, catalog);
      EmitAllFacts(st, init, catalog);
      EmitProblemFacts(EmitAll(st, init, catalog), ps[|ps| - 1], catalog);
    } else {
      assert ps[..i] == ps;
    }
  }

  /** The problem at position `i` of `ps` is emitted itself, not skipped as already added. */
  predicate EmitsItself(st: Emission, ps: seq<Problem>, i: nat, catalog: map<string, Problem>)
    requires i < |ps|
  {
    ps[i].id !in EmitPrereqs(EmitAll(st, ps[..i], catalog), ps[i].prerequisites, catalog).added
  }

  /** Every id in `added` of a consistent state sits at some position before `j`. */
  lemma AddedBefore(st: Emission, q: string)
    requires Consistent(st) && q in st.added
    ensures exists m :: 0 <= m < |st.out| && st.out[m].id == q
  {
    assert q in Ids(st.out);
    var x :| x in st.out && x.id == q;
  }

  /** A problem that is emitted itself comes after every one of its prerequisites the catalog knows. */
  lemma PrereqsBeforeDependent(st: Emission, ps: seq<Problem>, i: nat, catalog: map<string, Problem>)
    requires Consistent(st) && CatalogOk(catalog) && i < |ps|
    requires EmitsItself(st, ps, i, catalog)
    ensures exists j :: 0 <= j < |EmitAll(st, ps, catalog).out| && EmitAll(st, ps, catalog).out[j] == ps[i] &&
              forall q :: q in ps[i].prerequisites && q in catalog ==>
                exists m :: 0 <= m < j && EmitAll(st, ps, catalog).out[m].id == q
  {
    var out := EmitAll(st, ps, catalog).out;
    var sti := EmitAll(st, ps[..i], catalog);
    EmitAllFacts(st, ps[..i], catalog);
    EmitPrereqsFacts(sti, ps[i].prerequisites, catalog);
    var st1 := EmitPrereqs(sti, ps[i].prerequisites, catalog);
    assert ps[..i + 1] == ps[..i] + [ps[i]];
    EmitAllSnoc(st, ps[..i], ps[i], catalog);
    var si := EmitAll(st, ps[..i + 1], catalog);
    assert si.out == st1.out + [ps[i]];
    EmitAllPrefix(st, ps, i + 1, catalog);
    var j := |st1.out|;
    assert out[j] == si.out[j];
    forall q | q in ps[i].prerequisites && q in catalog ensures exists m :: 0 <= m < j && out[m].id == q {
      AddedBefore(st1, q);
      var m :| 0 <= m < |st1.out| && st1.out[m].id == q;
      assert out[m] == si.out[m];
    }
  }

  /** A list and its grouped, flattened form hold the same problems. */
  lemma GroupedSameMembers(list: seq<Problem>)
    ensures forall p :: p in list <==> p in Flatten(GroupsOf(list, GetGroupKey))
  {
    var ps := Flatten(GroupsOf(list, GetGroupKey));
    GroupsOfMultiset(list, GetGroupKey);
    forall p ensures p in list <==> p in ps {
      assert p in list <==> p in multiset(list);
      assert p in ps <==> p in multiset(ps);
    }
  }

  /** The expansion of a list: no id twice, every listed problem present, nothing but listed problems and their known prerequisites. */
  lemma ExpandProperties(list: seq<Problem>, catalog: map<string, Problem>)
    requires CatalogOk(catalog)
    ensures NoDupIds(Expand(list, catalog))
    ensures forall p :: p in list ==> p.id in Ids(Expand(list, catalog))
    ensures forall x :: x in Expand(list, catalog) ==> FromList(x, list, catalog)
  {
    var ps := Flatten(GroupsOf(list, GetGroupKey));
    var st := EmitAll(Start, ps, catalog);
    assert Expand(list, catalog) == st.out;
    GroupedSameMembers(list);
    EmitAllFacts(Start, ps, catalog);
    forall x | x in st.out ensures FromList(x, list, catalog) {
      var m :| 0 <= m < |st.out| && st.out[m] == x;
      FromSameMembers(x, ps, list, catalog);
    }
  }

  /** Whether `x` comes from a list depends only on the list's members. */
  lemma FromSameMembers(x: Problem, ps: seq<Problem>, list: seq<Problem>, catalog: map<string, Problem>)
    requires forall p :: p in list <==> p in ps
    requires FromList(x, ps, catalog)
    ensures FromList(x, list, catalog)
  {
    var p :| p in ps && FromProblem(x, p, catalog);
    assert p in list;
  }

  /** The inner loop over one problem's prerequisites. */
  method AddPrerequisites(added: set<string>, out: seq<Problem>, prereqs: seq<string>, catalog: map<string, Problem>)
    returns (added': set<string>, out': seq<Problem>)
    ensures Emission(added', out') == EmitPrereqs(Emission(added, out), prereqs, catalog)
  {
    added', out' := added, out;
    for k := 0 to |prereqs|
      invariant Emission(added', out') == EmitPrereqs(Emission(added, out), prereqs[..k], catalog)
    {
      var q := prereqs[k];
      EmitPrereqsSnoc(Emission(added, out), prereqs[..k], q, catalog);
      assert prereqs[..k + 1] == prereqs[..k] + [q];
      if q !in added' && q in catalog {
        added' := added' + {q};
        out' := out' + [catalog[q]];
      }
    }
    assert prereqs[..|prereqs|] == prereqs;
  }

  /** The loop over the problems of one group. */
  method AddGroup(added: set<string>, out: seq<Problem>, items: seq<Problem>, catalog: map<string, Problem>)
    returns (added': set<string>, out': seq<Problem>)
    ensures Emission(added', out') == EmitAll(Emission(added, out), items, catalog)
  {
    added', out' := added, out;
    for i := 0 to |items|
      invariant Emission(added', out') == EmitAll(Emission(added, out), items[..i], catalog)
    {
      var problem := items[i];
      added', out' := AddPrerequisites(added', out', problem.prerequisites, catalog);
      if problem.id !in added' {
        added' := added' + {problem.id};
        out' := out' + [problem];
      }
      EmitAllSnoc(Emission(added, out), items[..i], problem, catalog);
      assert items[..i + 1] == items[..i] + [problem];
    }
    assert items[..|items|] == items;
  }

  lemma {:induction false} EmitAllConcat(st: Emission, xs: seq<Problem>, ys: seq<Problem>, catalog: map<string, Problem>)
    ensures EmitAll(st, xs + ys, catalog) == EmitAll(EmitAll(st, xs, catalog), ys, catalog)
    decreases |ys|
  {
    if ys == [] {
      assert xs + ys == xs;
    } else {
      var init := ys[..|ys| - 1];
      var y := ys[|ys| - 1];
      assert ys == init + [y];
      assert xs + ys == (xs + init) + [y];
      EmitAllConcat(st, xs, init, catalog);
      EmitAllSnoc(st, xs + init, y, catalog);
      EmitAllSnoc(EmitAll(st, xs, catalog), init, y, catalog);
    }
  }

  /** Groups problems by their group key, in first-appearance order. */
  method GroupProblems(list: seq<Problem>) returns (groups: seq<Group<Problem>>)
    ensures groups == GroupsOf(list, GetGroupKey)
  {
    groups := GroupByKey(list, GetGroupKey);
  }

  lemma GroupStep(groups: seq<Group<Problem>>, g: nat, catalog: map<string, Problem>)
    requires g < |groups|
    ensures EmitAll(Start, Flatten(groups[..g + 1]), catalog) ==
            EmitAll(EmitAll(Start, Flatten(groups[..g]), catalog), groups[g].items, catalog)
  {
    assert groups[..g + 1] == groups[..g] + [groups[g]];
    FlattenSnoc(groups[..g], groups[g]);
    EmitAllConcat(Start, Flatten(groups[..g]), groups[g].items, catalog);
  }

  /**
   * buildWithPrereqs: group the list by key in first-appearance order; for
   * each problem of each group emit its known prerequisites not yet added,
   * then the problem itself unless its id is already added.
   */
  method BuildWithPrereqs(list: seq<Problem>, catalog: map<string, Problem>) returns (result: seq<Problem>)
    ensures result == Expand(list, catalog)
  {
    var groups := GroupProblems(list);
    var addedIds;
    addedIds, result := AddGroups(groups, catalog);
  }

  /** The outer loop of buildWithPrereqs: every group in turn, sharing `addedIds` and `result`. */
  method AddGroups(groups: seq<Group<Problem>>, catalog: map<string, Problem>)
    returns (addedIds: set<string>, result: seq<Problem>)
    ensures Emission(addedIds, result) == EmitAll(Start, Flatten(groups), catalog)
  {
    addedIds, result := {}, [];
    for g := 0 to |groups|
      invariant Emission(addedIds, result) == EmitAll(Start, Flatten(groups[..g]), catalog)
    {
      GroupStep(groups, g, catalog);
      addedIds, result := AddGroup(addedIds, result, groups[g].items, catalog);
    }
    assert groups[..|groups|] == groups;
  }

  /**
   * getDueProblems on day `today`: the due problems of the band, ordered and
   * expanded with their prerequisites; or, when none is due, the whole band
   * weakest first, expanded the same way.
   */
  method GetDueProblems(problems: seq<Problem>, reviews: map<string, ReviewRecord>, mode: Mode, today: Day)
    returns (res: DueResult)
    ensures res.isDue <==> exists p :: p in problems && InBand(p, mode) && IsDue(p, reviews, today)
    ensures res.isDue ==> res.problems == Expand(DueOrdered(Band(problems, mode), reviews, today), CatalogOf(problems))
    ensures !res.isDue ==> res.problems == Expand(WeakestFirst(Band(problems, mode), reviews), CatalogOf(problems))
    ensures NoDupIds(res.problems)
    ensures forall p :: p in problems && InBand(p, mode) && (res.isDue ==> IsDue(p, reviews, today)) ==>
              p.id in Ids(res.problems)
    ensures forall x :: x in res.problems ==>
              (x in problems &&
               ((InBand(x, mode) && (res.isDue ==> IsDue(x, reviews, today))) || IsPrerequisite(x, problems)))
  {
    var filtered := Band(problems, mode);
    var due := DueOf(filtered, reviews, today);
    var catalog := IndexById(problems);
    AnyDue(problems, reviews, mode, today);
    if |due| > 0 {
      var expanded := BuildWithPrereqs(DueOrdered(filtered, reviews, today), catalog);
      res := DueResult(expanded, true);
      DueCase(problems, reviews, mode, today);
    } else {
      var expanded := BuildWithPrereqs(WeakestFirst(filtered, reviews), catalog);
      res := DueResult(expanded, false);
      PracticeCase(problems, reviews, mode);
    }
  }

  /** Some problem of the band is due exactly when the due list is non-empty. */
  lemma AnyDue(problems: seq<Problem>, reviews: map<string, ReviewRecord>, mode: Mode, today: Day)
    ensures |DueOf(Band(problems, mode), reviews, today)| > 0 <==>
            exists p :: p in problems && InBand(p, mode) && IsDue(p, reviews, today)
  {
    var due := DueOf(Band(problems, mode), reviews, today);
    if |due| > 0 {
      assert due[0] in due;
    }
  }

  lemma DueCase(problems: seq<Problem>, reviews: map<string, ReviewRecord>, mode: Mode, today: Day)
    ensures NoDupIds(Expand(DueOrdered(Band(problems, mode), reviews, today), CatalogOf(problems)))
    ensures forall p :: p in problems && InBand(p, mode) && IsDue(p, reviews, today) ==>
              p.id in Ids(Expand(DueOrdered(Band(problems, mode), reviews, today), CatalogOf(problems)))
    ensures forall x :: x in Expand(DueOrdered(Band(problems, mode), reviews, today), CatalogOf(problems)) ==>
              (x in problems && ((InBand(x, mode) && IsDue(x, reviews, today)) || IsPrerequisite(x, problems)))
  {
    var band := Band(problems, mode);
    var due := DueOf(band, reviews, today);
    var list := DueOrdered(band, reviews, today);
    var out := Expand(list, CatalogOf(problems));
    DueOrderedProperties(band, reviews, today);
    SameMembers(list, due);
    ExpandWithin(list, problems);
    forall p | p in problems && InBand(p, mode) && IsDue(p, reviews, today) ensures p.id in Ids(out) {
      assert p in band;
      assert p in due;
      assert p in list;
    }
    forall x | x in out ensures x in problems && ((InBand(x, mode) && IsDue(x, reviews, today)) || IsPrerequisite(x, problems)) {
      if x in list {
        assert x in due;
        assert x in band;
      }
    }
  }

  lemma PracticeCase(problems: seq<Problem>, reviews: map<string, ReviewRecord>, mode: Mode)
    ensures NoDupIds(Expand(WeakestFirst(Band(problems, mode), reviews), CatalogOf(problems)))
    ensures forall p :: p in problems && InBand(p, mode) ==>
              p.id in Ids(Expand(WeakestFirst(Band(problems, mode), reviews), CatalogOf(problems)))
    ensures forall x :: x in Expand(WeakestFirst(Band(problems, mode), reviews), CatalogOf(problems)) ==>
              (x in problems && (InBand(x, mode) || IsPrerequisite(x, problems)))
  {
    var band := Band(problems, mode);
    var list := WeakestFirst(band, reviews);
    WeakestFirstProperties(band, reviews);
    SameMembers(list, band);
    ExpandWithin(list, problems);
  }

  /** `x` is the entry of some problem's prerequisite. */
  predicate IsPrerequisite(x: Problem, problems: seq<Problem>)
  {
    exists p :: p in problems && x.id in p.prerequisites
  }

  lemma SameMembers(a: seq<Problem>, b: seq<Problem>)
    requires multiset(a) == multiset(b)
    ensures forall x :: x in a <==> x in b
  {
    forall x ensures x in a <==> x in b {
      assert x in a <==> x in multiset(a);
      assert x in b <==> x in multiset(b);
    }
  }

  /** Expanding a list drawn from `problems` against their catalog. */
  lemma ExpandWithin(list: seq<Problem>, problems: seq<Problem>)
    requires forall p :: p in list ==> p in problems
    ensures NoDupIds(Expand(list, CatalogOf(problems)))
    ensures forall p :: p in list ==> p.id in Ids(Expand(list, CatalogOf(problems)))
    ensures forall x :: x in Expand(list, CatalogOf(problems)) ==>
              (x in problems && (x in list || IsPrerequisite(x, problems)))
  {
    var catalog := CatalogOf(problems);
    ExpandProperties(list, catalog);
    forall x | x in Expand(list, catalog) ensures x in problems && (x in list || IsPrerequisite(x, problems)) {
      var p :| p in list && FromProblem(x, p, catalog);
      if x != p {
        var q :| q in p.prerequisites && q in catalog && x == catalog[q];
        assert p in problems && x.id in p.prerequisites;
      }
    }
  }
}

=== FILE: group_key.dfy ===
/**
 * Problems and their group keys.  A problem's `source` label names the test,
 * the big question and the sub-question ("Test 405 Q4(1)"); the group key
 * drops the trailing sub-question index so that the sub-questions of one big
 * question share a key.
 */
module GroupKey {

  /**
   * A catalog problem.  A missing `correctRate` reads as 0 and missing
   * `prerequisites` as an empty list, as the `|| 0` and truthiness tests do.
   */
  datatype Problem = Problem(id: string, source: string, correctRate: int, prerequisites: seq<string>)

  /** The characters String.prototype.trim removes: WhiteSpace and LineTerminator of ECMAScript. */
  predicate IsWhitespace(c: char)
  {
    || c == '\U{9}' || c == '\U{A}' || c == '\U{B}' || c == '\U{C}' || c == '\U{D}'
    || c == '\U{20}' || c == '\U{A0}' || c == '\U{1680}'
    || ('\U{2000}' <= c <= '\U{200A}')
    || c == '\U{2028}' || c == '\U{2029}' || c == '\U{202F}' || c == '\U{205F}'
    || c == '\U{3000}' || c == '\U{FEFF}'
  }

  /** Leading whitespace removed. */
  function TrimStart(s: string): (r: string)
    ensures |r| <= |s| && r == s[|s| - |r|..]
    ensures r == [] || !IsWhitespace(r[0])
    ensures forall k :: 0 <= k < |s| - |r| ==> IsWhitespace(s[k])
  {
    if s != [] && IsWhitespace(s[0]) then
      var r := TrimStart(s[1..]);
      assert s[1..][|s| - 1 - |r|..] == s[|s| - |r|..];
      assert forall k :: 0 <= k < |s| - |r| ==> IsWhitespace(s[k]) by {
        forall k | 0 < k < |s| - |r| ensures IsWhitespace(s[k]) {
          assert s[k] == s[1..][k - 1];
        }
      }
      r
    else s
  }

  /** Trailing whitespace removed. */
  function TrimEnd(s: string): (r: string)
    ensures |r| <= |s| && r == s[..|r|]
    ensures r == [] || !IsWhitespace(r[|r| - 1])
    ensures forall k :: |r| <= k < |s| ==> IsWhitespace(s[k])
  {
    if s != [] && IsWhitespace(s[|s| - 1]) then TrimEnd(s[..|s| - 1]) else s
  }

  /** String.prototype.trim. */
  function Trim(s: string): (r: string)
    ensures |r| <= |s|
    ensures r == [] || (!IsWhitespace(r[0]) && !IsWhitespace(r[|r| - 1]))
    ensures s == [] || (!IsWhitespace(s[0]) && !IsWhitespace(s[|s| - 1])) ==> r == s
  {
    TrimEnd(TrimStart(s))
  }

  predicate IsOpen(c: char) { c == '(' || c == '（' }
  predicate IsClose(c: char) { c == ')' || c == '）' }
  /** `\d` of a JavaScript regular expression without the `u` flag. */
  predicate IsDigit(c: char) { '0' <= c <= '9' }

  predicate AllDigits(s: string)
  {
    forall k :: 0 <= k < |s| ==> IsDigit(s[k])
  }

  /** `s` matches /[\(（][\d]+[\)）]$/: an opening bracket, digits, a closing bracket, at the very end. */
  predicate EndsWithSubIndex(s: string)
  {
    exists j :: 0 <= j && j + 2 < |s| && IsOpen(s[j]) && AllDigits(s[j + 1..|s| - 1]) && IsClose(s[|s| - 1])
  }

  /** The start of the run of digits that ends at `end`. */
  function DigitRunStart(s: string, end: nat): (k: nat)
    requires end <= |s|
    ensures k <= end && AllDigits(s[k..end])
    ensures k == 0 || !IsDigit(s[k - 1])
  {
    if end > 0 && IsDigit(s[end - 1]) then
      var k := DigitRunStart(s, end - 1);
      assert s[k..end] == s[k..end - 1] + [s[end - 1]];
      k
    else end
  }

  lemma {:induction false} DigitRunStartUnique(s: string, end: nat, k: nat)
    requires k <= end <= |s|
    requires AllDigits(s[k..end])
    requires k == 0 || !IsDigit(s[k - 1])
    ensures DigitRunStart(s, end) == k
    decreases end
  {
    if end > k {
      assert IsDigit(s[k..end][end - 1 - k]);
      assert s[k..end - 1] == s[k..end][..end - 1 - k];
      DigitRunStartUnique(s, end - 1, k);
    }
  }

  /**
   * `source.replace(/[\(（][\d]+[\)）]$/, '')`: drops one trailing bracketed
   * sub-question index, and leaves any other label as it is.
   */
  function StripSubIndex(s: string): (r: string)
    ensures !EndsWithSubIndex(s) ==> r == s
    ensures EndsWithSubIndex(s) ==>
              && |r| + 3 <= |s| && s[..|r|] == r
              && IsOpen(s[|r|]) && AllDigits(s[|r| + 1..|s| - 1]) && IsClose(s[|s| - 1])
  {
    if |s| >= 3 && IsClose(s[|s| - 1]) then
      var k := DigitRunStart(s, |s| - 1);
      if 1 <= k < |s| - 1 && IsOpen(s[k - 1]) then
        assert EndsWithSubIndex(s);
        s[..k - 1]
      else
        assert !EndsWithSubIndex(s) by {
          if EndsWithSubIndex(s) {
            var j :| 0 <= j && j + 2 < |s| && IsOpen(s[j]) && AllDigits(s[j + 1..|s| - 1]);
            DigitRunStartUnique(s, |s| - 1, j + 1);
          }
        }
        s
    else s
  }

  /** getGroupKey: the source label without its sub-question index, trimmed. */
  function GetGroupKey(p: Problem): (k: string)
    ensures |k| <= |p.source|
    ensures k == [] || (!IsWhitespace(k[0]) && !IsWhitespace(k[|k| - 1]))
    ensures !EndsWithSubIndex(p.source) ==> k == Trim(p.source)
  {
    Trim(StripSubIndex(p.source))
  }

  /** isWarmupGroup: the key ends with "大問1" (big question 1, the calculation warm-up). */
  predicate IsWarmupGroup(key: string): (b: bool)
    ensures b <==> exists head :: key == head + "大問1"
  {
    assert |key| >= 3 ==> key == key[..|key| - 3] + key[|key| - 3..];
    |key| >= 3 && key[|key| - 3..] == "大問1"
  }

  /** A label followed by a bracketed index is stripped back to the label itself. */
  lemma SubIndexStripped(base: string, open: char, digits: string, close: char)
    requires IsOpen(open) && IsClose(close)
    requires digits != [] && AllDigits(digits)
    ensures StripSubIndex(base + [open] + digits + [close]) == base
  {
    var s := base + [open] + digits + [close];
    var k := |base| + 1;
    assert s[k..|s| - 1] == digits;
    assert s[k - 1] == open;
    DigitRunStartUnique(s, |s| - 1, k);
    assert s[..k - 1] == base;
  }

  /** The sub-questions "L(1)", "L(2)", ... of one big question share the group key of "L". */
  lemma SubQuestionsShareKey(p: Problem, q: Problem, base: string, d1: string, d2: string)
    requires d1 != [] && AllDigits(d1) && d2 != [] && AllDigits(d2)
    requires p.source == base + "(" + d1 + ")"
    requires q.source == base + "（" + d2 + "）"
    ensures GetGroupKey(p) == GetGroupKey(q) == Trim(base)
  {
    assert p.source == base + ['('] + d1 + [')'];
    assert q.source == base + ['（'] + d2 + ['）'];
    SubIndexStripped(base, '(', d1, ')');
    SubIndexStripped(base, '（', d2, '）');
  }

  /** Removing leading blanks cannot reach into a suffix that starts with a non-blank. */
  lemma {:induction false} TrimStartKeepsSuffix(s: string, suffix: string)
    requires 0 < |suffix| <= |s| && s[|s| - |suffix|..] == suffix
    requires !IsWhitespace(suffix[0])
    ensures |TrimStart(s)| >= |suffix| && TrimStart(s)[|TrimStart(s)| - |suffix|..] == suffix
  {
    if IsWhitespace(s[0]) {
      assert s[0] != suffix[0];
      assert s[1..][|s| - 1 - |suffix|..] == suffix;
      TrimStartKeepsSuffix(s[1..], suffix);
    }
  }

  /** Removing trailing blanks leaves a label that ends in a non-blank as it is. */
  lemma TrimEndKeepsNonBlank(t: string)
    requires t != [] && !IsWhitespace(t[|t| - 1])
    ensures TrimEnd(t) == t
  {
  }

  /** Removing trailing blanks leaves a label that ends in a suffix with a non-blank last character as it is. */
  lemma TrimEndKeepsSuffix(t: string, suffix: string)
    requires 0 < |suffix| <= |t| && t[|t| - |suffix|..] == suffix
    requires !IsWhitespace(suffix[|suffix| - 1])
    ensures TrimEnd(t) == t
  {
    assert t[|t| - |suffix|..][|suffix| - 1] == t[|t| - 1];
    TrimEndKeepsNonBlank(t);
  }

  /** Trimming keeps a label that ends in a suffix with non-blank ends ending with that suffix. */
  lemma TrimKeepsSuffix(s: string, suffix: string)
    requires 0 < |suffix| <= |s| && s[|s| - |suffix|..] == suffix
    requires !IsWhitespace(suffix[0]) && !IsWhitespace(suffix[|suffix| - 1])
    ensures |Trim(s)| >= |suffix| && Trim(s)[|Trim(s)| - |suffix|..] == suffix
  {
    TrimStartKeepsSuffix(s, suffix);
    TrimEndKeepsSuffix(TrimStart(s), suffix);
  }

  /** A label ending in "大問1" keeps that ending once trimmed. */
  lemma WarmupLabelKept(b: string)
    requires |b| >= 3 && b[|b| - 3..] == "大問1"
    ensures IsWarmupGroup(Trim(b))
  {
    TrimKeepsSuffix(b, "大問1");
  }

  /** Every sub-question of a big question 1 belongs to a warm-up group. */
  lemma WarmupSubQuestion(p: Problem, base: string, digits: string)
    requires digits != [] && AllDigits(digits)
    requires p.source == base + "大問1" + "(" + digits + ")"
    ensures IsWarmupGroup(GetGroupKey(p))
  {
    var b := base + "大問1";
    assert p.source == b + ['('] + digits + [')'];
    SubIndexStripped(b, '(', digits, ')');
    assert b[|b| - 3..] == "大問1";
    WarmupLabelKept(b);
  }
}

=== FILE: grouping.dfy ===
/**
 * Grouping of a list by a string key, in order of first appearance, keeping
 * each group's elements in their original order.  Both getDueProblems
 * (inside buildWithPrereqs) and selectBatch group problems this way, by
 * their group key.
 */
module Grouping {

  /** A big question: its key and its sub-questions. */
  datatype Group<T> = Group(key: string, items: seq<T>)

  /** The elements of `list` whose key is `k`, in order. */
  function WithKey<T(!new)>(list: seq<T>, key: T -> string, k: string): (r: seq<T>)
    ensures forall x :: x in r <==> x in list && key(x) == k
    ensures (forall x :: x in list ==> key(x) != k) ==> r == []
  {
    if list == [] then []
    else
      var last := list[|list| - 1];
      assert list == list[..|list| - 1] + [last];
      WithKey(list[..|list| - 1], key, k) + (if key(last) == k then [last] else [])
  }

  lemma {:induction false} WithKeySnoc<T(!new)>(list: seq<T>, x: T, key: T -> string, k: string)
    ensures WithKey(list + [x], key, k) == WithKey(list, key, k) + (if key(x) == k then [x] else [])
  {
    assert (list + [x])[..|list + [x]| - 1] == list;
  }

  /** The groups' elements, concatenated in group order. */
  function Flatten<T>(gs: seq<Group<T>>): seq<T>
  {
    if gs == [] then [] else gs[0].items + Flatten(gs[1..])
  }

  lemma {:induction false} FlattenConcat<T>(a: seq<Group<T>>, b: seq<Group<T>>)
    ensures Flatten(a + b) == Flatten(a) + Flatten(b)
  {
    if a == [] {
      assert a + b == b;
    } else {
      assert (a + b)[1..] == a[1..] + b;
      FlattenConcat(a[1..], b);
    }
  }

  lemma {:induction false} FlattenSnoc<T>(gs: seq<Group<T>>, g: Group<T>)
    ensures Flatten(gs + [g]) == Flatten(gs) + g.items
  {
    FlattenConcat(gs, [g]);
    assert Flatten([g]) == g.items + Flatten([]);
  }

  /** Taking one group out of the middle takes its elements out of the flattening. */
  lemma {:induction false} FlattenRemove<T>(b: seq<Group<T>>, t: nat)
    requires t < |b|
    ensures multiset(Flatten(b)) == multiset(b[t].items) + multiset(Flatten(b[..t] + b[t + 1..]))
  {
    assert b == b[..t] + [b[t]] + b[t + 1..];
    FlattenConcat(b[..t] + [b[t]], b[t + 1..]);
    FlattenConcat(b[..t], [b[t]]);
    FlattenConcat(b[..t], b[t + 1..]);
    assert Flatten([b[t]]) == b[t].items + Flatten([]);
  }

  /** Reordering whole groups reorders the flattened elements. */
  lemma {:induction false} FlattenMultiset<T>(a: seq<Group<T>>, b: seq<Group<T>>)
    requires multiset(a) == multiset(b)
    ensures multiset(Flatten(a)) == multiset(Flatten(b))
    decreases |a|
  {
    if a == [] {
      assert |b| == |multiset(b)| == 0;
    } else {
      var g := a[0];
      assert g in multiset(b);
      var t :| 0 <= t < |b| && b[t] == g;
      var b' := b[..t] + b[t + 1..];
      assert b == b[..t] + [g] + b[t + 1..];
      assert a == [g] + a[1..];
      calc {
        multiset(a[1..]);
        multiset(a) - multiset{g};
        multiset(b) - multiset{g};
        multiset(b');
      }
      FlattenMultiset(a[1..], b');
      FlattenRemove(b, t);
    }
  }

  /** Appends `x` to the group with key `k`, or opens a new group at the end. */
  function AddKeyed<T>(gs: seq<Group<T>>, k: string, x: T): seq<Group<T>>
  {
    if gs == [] then [Group(k, [x])]
    else if gs[0].key == k then [gs[0].(items := gs[0].items + [x])] + gs[1..]
    else [gs[0]] + AddKeyed(gs[1..], k, x)
  }

  lemma {:induction false} AddKeyedMultiset<T>(gs: seq<Group<T>>, k: string, x: T)
    ensures multiset(Flatten(AddKeyed(gs, k, x))) == multiset(Flatten(gs)) + multiset{x}
  {
    if gs != [] && gs[0].key != k {
      AddKeyedMultiset(gs[1..], k, x);
    }
  }

  /** The groups of `list`: keys in first-appearance order, each group's elements in list order. */
  function GroupsOf<T>(list: seq<T>, key: T -> string): seq<Group<T>>
  {
    if list == [] then []
    else
      var last := list[|list| - 1];
      AddKeyed(GroupsOf(list[..|list| - 1], key), key(last), last)
  }

  predicate DistinctKeys<T>(gs: seq<Group<T>>)
  {
    forall t, u :: 0 <= t < u < |gs| ==> gs[t].key != gs[u].key
  }

  /** Some group of `gs` has key `k`. */
  predicate HasKey<T>(gs: seq<Group<T>>, k: string)
  {
    exists t :: 0 <= t < |gs| && gs[t].key == k
  }

  lemma {:induction false} AddKeyedExisting<T>(gs: seq<Group<T>>, k: string, x: T, t: nat)
    requires DistinctKeys(gs)
    requires t < |gs| && gs[t].key == k
    ensures AddKeyed(gs, k, x) == gs[t := gs[t].(items := gs[t].items + [x])]
    decreases |gs|
  {
    if t > 0 {
      AddKeyedExisting(gs[1..], k, x, t - 1);
    }
  }

  lemma {:induction false} AddKeyedNew<T>(gs: seq<Group<T>>, k: string, x: T)
    requires !HasKey(gs, k)
    ensures AddKeyed(gs, k, x) == gs + [Group(k, [x])]
    decreases |gs|
  {
    if gs != [] {
      assert gs[0].key != k;
      assert !HasKey(gs[1..], k);
      AddKeyedNew(gs[1..], k, x);
    }
  }

  /** Adding an element keeps keys distinct and adds its key. */
  lemma {:induction false} AddKeyedDistinct<T>(gs: seq<Group<T>>, k: string, x: T)
    requires DistinctKeys(gs)
    ensures DistinctKeys(AddKeyed(gs, k, x))
    ensures forall k' :: HasKey(AddKeyed(gs, k, x), k') <==> HasKey(gs, k') || k' == k
  {
    var r := AddKeyed(gs, k, x);
    if t :| 0 <= t < |gs| && gs[t].key == k {
      AddKeyedExisting(gs, k, x, t);
      forall k' | HasKey(r, k') ensures HasKey(gs, k') || k' == k {
        var u :| 0 <= u < |r| && r[u].key == k';
        assert gs[u].key == k';
      }
      forall k' | HasKey(gs, k') || k' == k ensures HasKey(r, k') {
        if k' == k {
          assert r[t].key == k';
        } else {
          var u :| 0 <= u < |gs| && gs[u].key == k';
          assert r[u].key == k';
        }
      }
    } else {
      AddKeyedNew(gs, k, x);
      forall k' | HasKey(r, k') ensures HasKey(gs, k') || k' == k {
        var u :| 0 <= u < |r| && r[u].key == k';
        if u < |gs| { assert gs[u].key == k'; }
      }
      forall k' | HasKey(gs, k') || k' == k ensures HasKey(r, k') {
        if k' == k {
          assert r[|gs|].key == k';
        } else {
          var u :| 0 <= u < |gs| && gs[u].key == k';
          assert r[u].key == k';
        }
      }
    }
  }

  /** The groups of a list have distinct keys, and there is a group exactly for every key in the list. */
  lemma {:induction false} GroupsOfKeys<T(!new)>(list: seq<T>, key: T -> string)
    ensures DistinctKeys(GroupsOf(list, key))
    ensures forall k :: HasKey(GroupsOf(list, key), k) <==> exists x :: x in list && key(x) == k
    decreases |list|
  {
    if list != [] {
      var init := list[..|list| - 1];
      var last := list[|list| - 1];
      assert list == init + [last];
      GroupsOfKeys(init, key);
      AddKeyedDistinct(GroupsOf(init, key), key(last), last);
      forall k ensures HasKey(GroupsOf(list, key), k) <==> exists x :: x in list && key(x) == k {
        if HasKey(GroupsOf(list, key), k) && k != key(last) {
          var x :| x in init && key(x) == k;
          assert x in list;
        }
        if exists x :: x in list && key(x) == k {
          var x :| x in list && key(x) == k;
          if x != last { assert x in init; }
        }
      }
    }
  }

  /**
   * Each group holds exactly the list's elements of its key, in list order:
   * no group is empty and no group is split.
   */
  lemma {:induction false} GroupsOfContents<T(!new)>(list: seq<T>, key: T -> string)
    ensures forall t :: 0 <= t < |GroupsOf(list, key)| ==>
              && GroupsOf(list, key)[t].items == WithKey(list, key, GroupsOf(list, key)[t].key)
              && GroupsOf(list, key)[t].items != []
    decreases |list|
  {
    if list != [] {
      var init := list[..|list| - 1];
      var last := list[|list| - 1];
      var k := key(last);
      assert list == init + [last];
      GroupsOfContents(init, key);
      GroupsOfKeys(init, key);
      var gs := GroupsOf(init, key);
      var r := GroupsOf(list, key);
      assert r == AddKeyed(gs, k, last);
      if t :| 0 <= t < |gs| && gs[t].key == k {
        AddKeyedExisting(gs, k, last, t);
        forall u | 0 <= u < |r| ensures r[u].items == WithKey(list, key, r[u].key) && r[u].items != [] {
          WithKeySnoc(init, last, key, r[u].key);
          if u != t {
            assert gs[u].key != k;
          }
        }
      } else {
        AddKeyedNew(gs, k, last);
        assert !HasKey(gs, k);
        assert forall x :: x in init ==> key(x) != k;
        assert WithKey(init, key, k) == [];
        forall u | 0 <= u < |r| ensures r[u].items == WithKey(list, key, r[u].key) && r[u].items != [] {
          WithKeySnoc(init, last, key, r[u].key);
          if u < |gs| {
            assert gs[u].key != k;
          }
        }
      }
    }
  }

  /** Grouping only reorders: the groups together hold exactly the list's elements. */
  lemma {:induction false} GroupsOfMultiset<T>(list: seq<T>, key: T -> string)
    ensures multiset(Flatten(GroupsOf(list, key))) == multiset(list)
    decreases |list|
  {
    if list != [] {
      var init := list[..|list| - 1];
      assert list == init + [list[|list| - 1]];
      GroupsOfMultiset(init, key);
      AddKeyedMultiset(GroupsOf(init, key), key(list[|list| - 1]), list[|list| - 1]);
    }
  }

  /** In `list`, key `a` first appears before any element with key `b`. */
  predicate Before<T>(list: seq<T>, key: T -> string, a: string, b: string)
  {
    exists i :: 0 <= i < |list| && key(list[i]) == a && forall j :: 0 <= j <= i ==> key(list[j]) != b
  }

  lemma BeforeSnoc<T>(list: seq<T>, x: T, key: T -> string, a: string, b: string)
    requires Before(list, key, a, b)
    ensures Before(list + [x], key, a, b)
  {
    var i :| 0 <= i < |list| && key(list[i]) == a && forall j :: 0 <= j <= i ==> key(list[j]) != b;
    var l := list + [x];
    assert key(l[i]) == a;
    forall j | 0 <= j <= i ensures key(l[j]) != b {
      assert l[j] == list[j];
    }
  }

  /** The groups come in order of their keys' first appearance in the list. */
  lemma {:induction false} GroupsOfOrder<T(!new)>(list: seq<T>, key: T -> string)
    ensures forall t, u :: 0 <= t < u < |GroupsOf(list, key)| ==>
              Before(list, key, GroupsOf(list, key)[t].key, GroupsOf(list, key)[u].key)
    decreases |list|
  {
    if list != [] {
      var init := list[..|list| - 1];
      var last := list[|list| - 1];
      var k := key(last);
      assert list == init + [last];
      GroupsOfOrder(init, key);
      GroupsOfKeys(init, key);
      var gs := GroupsOf(init, key);
      var r := GroupsOf(list, key);
      assert r == AddKeyed(gs, k, last);
      if t :| 0 <= t < |gs| && gs[t].key == k {
        AddKeyedExisting(gs, k, last, t);
        forall t', u | 0 <= t' < u < |r| ensures Before(list, key, r[t'].key, r[u].key) {
          assert r[t'].key == gs[t'].key && r[u].key == gs[u].key;
          BeforeSnoc(init, last, key, gs[t'].key, gs[u].key);
        }
      } else {
        AddKeyedNew(gs, k, last);
        assert !HasKey(gs, k);
        forall t', u | 0 <= t' < u < |r| ensures Before(list, key, r[t'].key, r[u].key) {
          if u < |gs| {
            BeforeSnoc(init, last, key, gs[t'].key, gs[u].key);
          } else {
            var a := gs[t'].key;
            assert HasKey(gs, a);
            var x :| x in init && key(x) == a;
            var i :| 0 <= i < |init| && init[i] == x;
            forall j | 0 <= j <= i ensures key(list[j]) != k {
              assert list[j] == init[j];
            }
            assert key(list[i]) == a;
          }
        }
      }
    }
  }

  /** `index` maps every key of `groups` to the position of its group. */
  predicate IndexOf<T>(groups: seq<Group<T>>, index: map<string, nat>)
  {
    && DistinctKeys(groups)
    && (forall k :: k in index ==> index[k] < |groups| && groups[index[k]].key == k)
    && (forall t :: 0 <= t < |groups| ==> groups[t].key in index)
  }

  lemma OpenGroupStep<T>(groups: seq<Group<T>>, index: map<string, nat>, k: string, x: T)
    requires IndexOf(groups, index) && k !in index
    ensures IndexOf(groups + [Group(k, [x])], index[k := |groups|])
    ensures groups + [Group(k, [x])] == AddKeyed(groups, k, x)
  {
    AddKeyedNew(groups, k, x);
  }

  lemma AppendToGroupStep<T>(groups: seq<Group<T>>, index: map<string, nat>, k: string, x: T)
    requires IndexOf(groups, index) && k in index
    ensures index[k] < |groups|
    ensures IndexOf(groups[index[k] := groups[index[k]].(items := groups[index[k]].items + [x])], index)
    ensures groups[index[k] := groups[index[k]].(items := groups[index[k]].items + [x])] == AddKeyed(groups, k, x)
  {
    AddKeyedExisting(groups, k, x, index[k]);
  }

  /**
   * The grouping loop of selectBatch and buildWithPrereqs: a list of groups
   * and a key-to-group index; a new key opens an empty group, then the
   * element is appended to its key's group.
   */
  method GroupByKey<T>(list: seq<T>, key: T -> string) returns (groups: seq<Group<T>>)
    ensures groups == GroupsOf(list, key)
  {
    groups := [];
    var index: map<string, nat> := map[];
    for i := 0 to |list|
      invariant groups == GroupsOf(list[..i], key)
      invariant IndexOf(groups, index)
    {
      var x := list[i];
      var k := key(x);
      assert list[..i + 1][..i] == list[..i];
      assert GroupsOf(list[..i + 1], key) == AddKeyed(groups, k, x);
      if k !in index {
        OpenGroupStep(groups, index, k, x);
        index := index[k := |groups|];
        groups := groups + [Group(k, [])];
        groups := groups[|groups| - 1 := Group(k, [x])];
      } else {
        AppendToGroupStep(groups, index, k, x);
        var t := index[k];
        groups := groups[t := groups[t].(items := groups[t].items + [x])];
      }
    }
    assert list[..|list|] == list;
  }
}

=== FILE: leitner.dfy ===
/**
 * Leitner boxes for the flashcards.  A card's box (1 to 5) and the session in
 * which it was last seen decide when it comes back: box 1 every session,
 * box 2 every 2, box 3 every 5, box 4 every 10; box 5 means mastered.
 */
module Leitner {
  import opened Prelude
  import opened Sequences

  const MaxBox: int := 5
  const MaxCardsPerSession: nat := 15

  /** A card's Leitner record. */
  datatype BoxInfo = BoxInfo(box: int, lastSeenSession: int)

  /** Records by card id; a card without one has never been seen. */
  type Boxes = map<string, BoxInfo>

  datatype Card = Card(id: string)

  /** Sessions between two showings of a card in `box`; boxes outside 1 to 4 use 1. */
  function LeitnerInterval(box: int): (r: int)
    ensures r >= 1
    ensures 1 <= box <= 4 ==> r == [1, 2, 5, 10][box - 1]
    ensures !(1 <= box <= 4) ==> r == 1
  {
    if box == 1 then 1 else if box == 2 then 2 else if box == 3 then 5 else if box == 4 then 10 else 1
  }

  /** New cards are always due, mastered ones never; others once their interval has passed. */
  predicate IsCardDue(card: Card, boxes: Boxes, sessionCount: int): (due: bool)
    ensures card.id !in boxes ==> due
    ensures GetBoxForCard(boxes, card.id) >= MaxBox ==> !due
    ensures due && card.id in boxes ==> sessionCount > boxes[card.id].lastSeenSession
  {
    card.id !in boxes ||
    (boxes[card.id].box < MaxBox &&
     sessionCount - boxes[card.id].lastSeenSession >= LeitnerInterval(boxes[card.id].box))
  }

  /** getBoxForCard: the card's box, 0 for a card that has never been seen. */
  function GetBoxForCard(boxes: Boxes, cardId: string): (b: int)
    ensures cardId !in boxes ==> b == 0
    ensures cardId in boxes ==> b == boxes[cardId].box
  {
    if cardId in boxes then boxes[cardId].box else 0
  }

  /** The sort comparator: lower box first, new cards counting as box 0. */
  predicate LowerBoxFirst(boxes: Boxes, a: Card, b: Card)
  {
    GetBoxForCard(boxes, a.id) <= GetBoxForCard(boxes, b.id)
  }

  /** The due cards in catalog order. */
  function DueCards(allCards: seq<Card>, boxes: Boxes, sessionCount: int): seq<Card>
  {
    Filter(allCards, c => IsCardDue(c, boxes, sessionCount))
  }

  /** The due cards sorted by box. */
  function SortedDue(allCards: seq<Card>, boxes: Boxes, sessionCount: int): seq<Card>
  {
    SortBy(DueCards(allCards, boxes, sessionCount), (a, b) => LowerBoxFirst(boxes, a, b))
  }

  /** getFlashcardsDue: at most 15 due cards, lowest boxes first. */
  function GetFlashcardsDue(allCards: seq<Card>, boxes: Boxes, sessionCount: int): (r: seq<Card>)
    ensures |r| == Min(|DueCards(allCards, boxes, sessionCount)|, MaxCardsPerSession)
    ensures forall c :: c in r ==> c in allCards && IsCardDue(c, boxes, sessionCount)
  {
    var sorted := SortedDue(allCards, boxes, sessionCount);
    assert forall c :: c in sorted <==> c in multiset(sorted);
    if |sorted| <= MaxCardsPerSession then sorted else sorted[..MaxCardsPerSession]
  }

  lemma LowerBoxFirstTotal(boxes: Boxes)
    ensures TotalPreorder((a, b) => LowerBoxFirst(boxes, a, b))
  {
  }

  /**
   * The session's cards are the leading cards of the box-sorted due list:
   * in ascending box order, and no due card left out has a lower box than
   * one that was taken.
   */
  lemma GetFlashcardsDueOrder(allCards: seq<Card>, boxes: Boxes, sessionCount: int)
    ensures var r, sorted := GetFlashcardsDue(allCards, boxes, sessionCount), SortedDue(allCards, boxes, sessionCount);
      && r == sorted[..|r|]
      && (forall i, j :: 0 <= i < j < |r| ==> GetBoxForCard(boxes, r[i].id) <= GetBoxForCard(boxes, r[j].id))
      && (forall i, j :: 0 <= i < |r| <= j < |sorted| ==> GetBoxForCard(boxes, r[i].id) <= GetBoxForCard(boxes, sorted[j].id))
  {
    var sorted := SortedDue(allCards, boxes, sessionCount);
    var r := GetFlashcardsDue(allCards, boxes, sessionCount);
    assert r == sorted[..|r|];
    SortedDueAscending(allCards, boxes, sessionCount);
  }

  /** The sorted due list goes up by box. */
  lemma SortedDueAscending(allCards: seq<Card>, boxes: Boxes, sessionCount: int)
    ensures var sorted := SortedDue(allCards, boxes, sessionCount);
      forall i, j :: 0 <= i < j < |sorted| ==> GetBoxForCard(boxes, sorted[i].id) <= GetBoxForCard(boxes, sorted[j].id)
  {
    var le := (a, b) => LowerBoxFirst(boxes, a, b);
    LowerBoxFirstTotal(boxes);
    SortBySorted(DueCards(allCards, boxes, sessionCount), le);
    var sorted := SortedDue(allCards, boxes, sessionCount);
    assert SortedBy(sorted, le);
    forall i, j | 0 <= i < j < |sorted|
      ensures GetBoxForCard(boxes, sorted[i].id) <= GetBoxForCard(boxes, sorted[j].id)
    {
      assert le(sorted[i], sorted[j]);
    }
  }

  /** A never-seen card is always due, a mastered card never. */
  lemma NewAndMasteredCards(card: Card, boxes: Boxes, sessionCount: int)
    ensures card.id !in boxes ==> IsCardDue(card, boxes, sessionCount)
    ensures card.id in boxes && boxes[card.id].box >= MaxBox ==> !IsCardDue(card, boxes, sessionCount)
  {
  }

  /** advanceCard: one box up (a never-seen card counts as box 1), capped at 5, seen now. */
  function AdvanceCard(boxes: Boxes, cardId: string, sessionCount: int): (r: Boxes)
    ensures r.Keys == boxes.Keys + {cardId}
    ensures r[cardId].lastSeenSession == sessionCount
    ensures cardId !in boxes ==> r[cardId].box == 2
    ensures cardId in boxes ==> r[cardId].box == Min(boxes[cardId].box + 1, MaxBox)
    ensures forall k :: k in boxes && k != cardId ==> r[k] == boxes[k]
  {
    var current := if cardId in boxes then boxes[cardId] else BoxInfo(1, sessionCount);
    boxes[cardId := BoxInfo(Min(current.box + 1, MaxBox), sessionCount)]
  }

  /** demoteCard: back to box 1, seen now. */
  function DemoteCard(boxes: Boxes, cardId: string, sessionCount: int): (r: Boxes)
    ensures r.Keys == boxes.Keys + {cardId}
    ensures r[cardId] == BoxInfo(1, sessionCount)
    ensures forall k :: k in boxes && k != cardId ==> r[k] == boxes[k]
  {
    boxes[cardId := BoxInfo(1, sessionCount)]
  }

  /** Every recorded box lies in 1 to 5. */
  predicate BoxesValid(boxes: Boxes)
  {
    forall k :: k in boxes ==> 1 <= boxes[k].box <= MaxBox
  }

  /** The ids of the mastered cards. */
  function Mastered(boxes: Boxes): set<string>
  {
    set k | k in boxes && boxes[k].box >= MaxBox
  }

  /** getMasteredCount: how many recorded cards are in box 5 or above. */
  function GetMasteredCount(boxes: Boxes): (n: nat)
    ensures n <= |boxes|
    ensures n == |Mastered(boxes)|
  {
    SubsetCard(Mastered(boxes), boxes.Keys);
    |Mastered(boxes)|
  }

  lemma {:induction false} SubsetCard<T>(a: set<T>, b: set<T>)
    requires a <= b
    ensures |a| <= |b|
    decreases b
  {
    if a != {} {
      var x :| x in a;
      SubsetCard(a - {x}, b - {x});
    }
  }

  /** Both moves keep every box within 1 to 5, and a valid box is 0 exactly for an unseen card. */
  lemma MovesKeepBoxesValid(boxes: Boxes, cardId: string, sessionCount: int)
    requires BoxesValid(boxes)
    ensures BoxesValid(AdvanceCard(boxes, cardId, sessionCount))
    ensures BoxesValid(DemoteCard(boxes, cardId, sessionCount))
    ensures GetBoxForCard(boxes, cardId) == 0 <==> cardId !in boxes
  {
  }

  /** Advancing never lowers a valid box and masters at most this one card. */
  lemma AdvanceMastered(boxes: Boxes, cardId: string, sessionCount: int)
    requires BoxesValid(boxes)
    ensures GetBoxForCard(AdvanceCard(boxes, cardId, sessionCount), cardId) > GetBoxForCard(boxes, cardId) ||
            GetBoxForCard(boxes, cardId) == MaxBox
    ensures Mastered(AdvanceCard(boxes, cardId, sessionCount)) ==
            Mastered(boxes) + (if AdvanceCard(boxes, cardId, sessionCount)[cardId].box >= MaxBox then {cardId} else {})
    ensures GetMasteredCount(boxes) <= GetMasteredCount(AdvanceCard(boxes, cardId, sessionCount)) <= GetMasteredCount(boxes) + 1
  {
    var r := AdvanceCard(boxes, cardId, sessionCount);
    var extra: set<string> := if r[cardId].box >= MaxBox then {cardId} else {};
    forall k ensures k in Mastered(r) <==> k in Mastered(boxes) + extra {
      if k != cardId && k in boxes {
        assert r[k] == boxes[k];
      }
    }
    assert Mastered(r) == Mastered(boxes) + extra;
    if extra == {} {
      assert Mastered(boxes) + extra == Mastered(boxes);
    } else {
      AddCard(Mastered(boxes), cardId);
    }
  }

  lemma AddCard<T>(a: set<T>, x: T)
    ensures |a + {x}| == |a| + (if x in a then 0 else 1)
  {
    if x in a {
      assert a + {x} == a;
    }
  }

  lemma RemoveCard<T>(a: set<T>, x: T)
    ensures |a - {x}| == |a| - (if x in a then 1 else 0)
  {
    if x in a {
      assert a == (a - {x}) + {x};
    } else {
      assert a - {x} == a;
    }
  }

  /** Demoting takes exactly this card out of the mastered set. */
  lemma DemoteMastered(boxes: Boxes, cardId: string, sessionCount: int)
    ensures Mastered(DemoteCard(boxes, cardId, sessionCount)) == Mastered(boxes) - {cardId}
    ensures GetMasteredCount(DemoteCard(boxes, cardId, sessionCount)) ==
            GetMasteredCount(boxes) - (if cardId in Mastered(boxes) then 1 else 0)
  {
    var r := DemoteCard(boxes, cardId, sessionCount);
    forall k ensures k in Mastered(r) <==> k in Mastered(boxes) - {cardId} {
      if k != cardId && k in boxes {
        assert r[k] == boxes[k];
      }
    }
    assert Mastered(r) == Mastered(boxes) - {cardId};
    RemoveCard(Mastered(boxes), cardId);
  }

  /** A demoted card is due again the next session. */
  lemma DemotedDueNextSession(boxes: Boxes, cardId: string, sessionCount: int)
    ensures IsCardDue(Card(cardId), DemoteCard(boxes, cardId, sessionCount), sessionCount + 1)
    ensures !IsCardDue(Card(cardId), DemoteCard(boxes, cardId, sessionCount), sessionCount)
  {
  }

  /** An advanced card stays away exactly for its new box's interval, or for good once mastered. */
  lemma AdvanceDefers(boxes: Boxes, cardId: string, sessionCount: int, later: int)
    ensures var r := AdvanceCard(boxes, cardId, sessionCount);
      IsCardDue(Card(cardId), r, later) <==>
        r[cardId].box < MaxBox && later - sessionCount >= LeitnerInterval(r[cardId].box)
  {
  }
}

=== FILE: prelude.dfy ===
/** Small helpers shared by every module of the model. */
module Prelude {

  /** A JavaScript value that may be `null`/`undefined` (an absent key, a missing section). */
  datatype Option<+T> = None | Some(value: T)

  /** Math.min over two integers. */
  function Min(a: int, b: int): int
  {
    if a <= b then a else b
  }

  /** Math.max over two integers. */
  function Max(a: int, b: int): int
  {
    if a >= b then a else b
  }
}

=== FILE: scheduler.dfy ===
/**
 * The review scheduler: a three-level simplification of SM-2.
 *
 * Quality levels are 1 (did not know), 3 (unsure) and 5 (knew it).  The ease
 * factor is kept in integer hundredths (2.50 is 250): every value the
 * scheduler produces is rounded to hundredths, and the ease deltas of the
 * three levels are exact hundredths.  Days are integer day numbers.
 */
module Scheduler {
  import opened Prelude

  type Day = int
  type Timestamp = int

  /** Initial ease factor of a never-reviewed item (2.5). */
  const InitialEase: int := 250
  /** The ease factor never drops below 1.3. */
  const MinEase: int := 130

  /** The part of a review record the scheduler reads. */
  datatype SchedulingState = SchedulingState(easeFactor: int, interval: int, repetitions: int)

  /** What the scheduler returns. */
  datatype NextReview = NextReview(easeFactor: int, interval: int, repetitions: int, nextReviewDate: Day)

  /** One answer in a record's append-only history. */
  datatype HistoryEntry = HistoryEntry(date: Timestamp, quality: int, correct: bool)

  /** A stored per-item review record. */
  datatype ReviewRecord = ReviewRecord(
    easeFactor: int,
    interval: int,
    repetitions: int,
    nextReviewDate: Day,
    lastReviewDate: Timestamp,
    history: seq<HistoryEntry>)
  {
    function State(): SchedulingState
    {
      SchedulingState(easeFactor, interval, repetitions)
    }
  }

  /** The state a never-reviewed item starts from: {2.5, 0, 0}. */
  const Fresh: SchedulingState := SchedulingState(InitialEase, 0, 0)

  /** Math.round (half-up) of num / den, for den > 0. */
  function RoundDiv(num: int, den: int): (r: int)
    requires den > 0
    ensures 2 * num - den < 2 * r * den <= 2 * num + den
  {
    var q := (2 * num + den) / (2 * den);
    assert (2 * num + den) == q * (2 * den) + (2 * num + den) % (2 * den);
    q
  }

  /** The ease change 0.1 - (5 - q) * (0.08 + (5 - q) * 0.02), in hundredths. */
  function EaseDelta(quality: int): (d: int)
    ensures quality == 5 ==> d == 10
    ensures quality == 3 ==> d == -14
    ensures quality == 1 ==> d == -54
    ensures quality == 4 ==> d == 0
  {
    10 - (5 - quality) * (8 + (5 - quality) * 2)
  }

  /** calculateNextReview: the new scheduling state after an answer of `quality` on day `today`. */
  function CalculateNextReview(s: SchedulingState, quality: int, today: Day): (r: NextReview)
    ensures quality < 3 ==> r.repetitions == 0 && r.interval == 1
    ensures quality >= 3 ==> r.repetitions == s.repetitions + 1
    ensures quality >= 3 && quality != 3 && s.repetitions == 0 ==> r.interval == 1
    ensures quality >= 3 && quality != 3 && s.repetitions == 1 ==> r.interval == 3
    ensures quality >= 3 && quality != 3 && s.repetitions != 0 && s.repetitions != 1 ==>
              2 * s.interval * s.easeFactor - 100 < 200 * r.interval <= 2 * s.interval * s.easeFactor + 100
    ensures quality == 3 && s.repetitions == 0 ==> r.interval == 1
    ensures quality == 3 && s.repetitions == 1 ==> r.interval == 2
    ensures quality == 3 && s.repetitions != 0 && s.repetitions != 1 ==>
              var m := RoundDiv(s.interval * s.easeFactor, 100);
              r.interval == (if m > 1 then Max(1, RoundDiv(m * 7, 10)) else m)
    ensures r.easeFactor >= MinEase
    ensures quality == 5 ==> r.easeFactor == Max(s.easeFactor + 10, MinEase)
    ensures quality == 3 ==> r.easeFactor == Max(s.easeFactor - 14, MinEase)
    ensures quality == 1 ==> r.easeFactor == Max(s.easeFactor - 54, MinEase)
    ensures r.nextReviewDate == today + r.interval
  {
    var passed := quality >= 3;
    var interval :=
      if !passed then 1
      else if s.repetitions == 0 then 1
      else if s.repetitions == 1 then 3
      else RoundDiv(s.interval * s.easeFactor, 100);
    var repetitions := if passed then s.repetitions + 1 else 0;
    var ease := s.easeFactor + EaseDelta(quality);
    var ease := if ease < MinEase then MinEase else ease;
    var interval := if quality == 3 && interval > 1 then Max(1, RoundDiv(interval * 7, 10)) else interval;
    NextReview(ease, interval, repetitions, today + interval)
  }

  /** The record invariant: ease at or above the floor, and a positive interval once reviewed. */
  predicate ValidState(s: SchedulingState)
  {
    s.easeFactor >= MinEase && s.repetitions >= 0 && (s.repetitions > 0 ==> s.interval >= 1)
  }

  function StateOf(r: NextReview): SchedulingState
  {
    SchedulingState(r.easeFactor, r.interval, r.repetitions)
  }

  /** From a valid state, the new interval is at least one day and the next review is strictly after today. */
  lemma NextReviewIsLater(s: SchedulingState, quality: int, today: Day)
    requires ValidState(s)
    ensures CalculateNextReview(s, quality, today).interval >= 1
    ensures CalculateNextReview(s, quality, today).nextReviewDate > today
    ensures ValidState(StateOf(CalculateNextReview(s, quality, today)))
  {
    if quality >= 3 && s.repetitions >= 2 {
      assert s.interval * s.easeFactor >= s.interval * MinEase;
    }
  }

  /** A failing answer resets the record whatever it was. */
  lemma FailResets(s: SchedulingState, t: SchedulingState, quality: int, today: Day)
    requires quality < 3
    requires s.easeFactor == t.easeFactor
    ensures CalculateNextReview(s, quality, today) == CalculateNextReview(t, quality, today)
    ensures CalculateNextReview(s, quality, today).interval == 1
  {
  }

  /** The concrete scenarios of a fresh record. */
  lemma FreshScenarios(today: Day)
    ensures CalculateNextReview(Fresh, 5, today) == NextReview(260, 1, 1, today + 1)
    ensures CalculateNextReview(Fresh, 3, today) == NextReview(236, 1, 1, today + 1)
    ensures CalculateNextReview(Fresh, 1, today) == NextReview(196, 1, 0, today + 1)
  {
  }

  /** The states reached by answering `qs` in order, on day `today`, starting from `s`. */
  function Replay(s: SchedulingState, qs: seq<int>, today: Day): SchedulingState
    decreases |qs|
  {
    if qs == [] then s
    else Replay(StateOf(CalculateNextReview(s, qs[0], today)), qs[1..], today)
  }

  /** No sequence of answers drives the ease factor below 1.3, nor breaks the record invariant. */
  lemma {:induction false} ReplayKeepsValid(s: SchedulingState, qs: seq<int>, today: Day)
    requires ValidState(s)
    ensures ValidState(Replay(s, qs, today))
    ensures Replay(s, qs, today).easeFactor >= MinEase
    decreases |qs|
  {
    if qs != [] {
      NextReviewIsLater(s, qs[0], today);
      ReplayKeepsValid(StateOf(CalculateNextReview(s, qs[0], today)), qs[1..], today);
    }
  }

  /** The state after `n` confident passes from a fresh record. */
  function ConfidentPasses(n: nat, today: Day): SchedulingState
  {
    if n == 0 then Fresh else StateOf(CalculateNextReview(ConfidentPasses(n - 1, today), 5, today))
  }

  /** A confident pass on an established record lengthens its interval. */
  lemma ConfidentPassLengthens(s: SchedulingState, today: Day)
    requires s.easeFactor >= MinEase && s.repetitions >= 2 && s.interval >= 3
    ensures CalculateNextReview(s, 5, today).interval > s.interval
  {
    var r := CalculateNextReview(s, 5, today);
    var product := s.interval * s.easeFactor;
    assert 2 * s.interval * s.easeFactor == 2 * product;
    MulAtLeast(s.interval, s.easeFactor, MinEase);
    assert 200 * r.interval > 2 * product - 100;
  }

  lemma MulAtLeast(a: int, b: int, c: int)
    requires a >= 0 && b >= c
    ensures a * b >= a * c
  {
    assert a * b - a * c == a * (b - c);
  }

  /**
   * A hesitant pass on an established record never schedules further out
   * than a confident one, and schedules strictly sooner unless the
   * confident interval is at most one day.
   */
  lemma HesitantPassDamps(s: SchedulingState, today: Day)
    requires s.repetitions >= 2
    ensures CalculateNextReview(s, 3, today).interval <= CalculateNextReview(s, 5, today).interval
    ensures CalculateNextReview(s, 3, today).interval == CalculateNextReview(s, 5, today).interval <==>
            CalculateNextReview(s, 5, today).interval <= 1
  {
    var m := CalculateNextReview(s, 5, today).interval;
    if m > 1 {
      var d := RoundDiv(m * 7, 10);
      assert 20 * d <= 14 * m + 10;
    }
  }

  lemma {:induction false} ConfidentPassesShape(n: nat, today: Day)
    ensures ConfidentPasses(n, today).repetitions == n
    ensures ConfidentPasses(n, today).easeFactor >= MinEase
    ensures n == 1 ==> ConfidentPasses(n, today).interval == 1
    ensures n >= 2 ==> ConfidentPasses(n, today).interval >= 3
  {
    if n >= 3 {
      ConfidentPassesShape(n - 1, today);
      ConfidentPassLengthens(ConfidentPasses(n - 1, today), today);
    } else if n > 0 {
      ConfidentPassesShape(n - 1, today);
    }
  }

  /** Repeated confident passes from a fresh record give strictly growing intervals: 1, 3, ... */
  lemma ConfidentIntervalsGrow(n: nat, today: Day)
    requires n >= 1
    ensures ConfidentPasses(n + 1, today).interval > ConfidentPasses(n, today).interval
  {
    ConfidentPassesShape(n, today);
    if n >= 2 {
      ConfidentPassLengthens(ConfidentPasses(n, today), today);
    }
  }
}

=== FILE: sequences.dfy ===
/**
 * The two Array.prototype operations the core relies on: `filter`, and a
 * stable `sort` driven by a comparator.  A comparator `cmp(a, b)` is modelled
 * by the relation `le(a, b)` that holds when `cmp(a, b) <= 0`, i.e. when `a`
 * may stay in front of `b`.
 */
module Sequences {

  /** The elements of `s` satisfying `f`, in their original order. */
  function Filter<T(!new)>(s: seq<T>, f: T -> bool): (r: seq<T>)
    ensures |r| <= |s|
    ensures forall x :: multiset(r)[x] == if f(x) then multiset(s)[x] else 0
    ensures forall x :: x in r <==> x in s && f(x)
  {
    if s == [] then []
    else
      var rest := Filter(s[1..], f);
      assert s == [s[0]] + s[1..];
      if f(s[0]) then [s[0]] + rest else rest
  }

  /** `le` is total and transitive: what a consistent comparator gives. */
  ghost predicate TotalPreorder<T(!new)>(le: (T, T) -> bool)
  {
    && (forall a, b :: le(a, b) || le(b, a))
    && (forall a, b, c :: le(a, b) && le(b, c) ==> le(a, c))
  }

  /** Every element may stay in front of every later one. */
  ghost predicate SortedBy<T>(s: seq<T>, le: (T, T) -> bool)
  {
    forall i, j :: 0 <= i < j < |s| ==> le(s[i], s[j])
  }

  /**
   * Inserts `x` in front of the first element it may precede; placed before
   * everything equivalent to it, `x` keeps its original relative order.
   */
  function Insert<T>(x: T, s: seq<T>, le: (T, T) -> bool): (r: seq<T>)
    ensures |r| == |s| + 1
    ensures multiset(r) == multiset(s) + multiset{x}
  {
    if s == [] || le(x, s[0]) then [x] + s
    else
      assert s == [s[0]] + s[1..];
      [s[0]] + Insert(x, s[1..], le)
  }

  lemma {:induction false} InsertSorted<T(!new)>(x: T, s: seq<T>, le: (T, T) -> bool)
    requires TotalPreorder(le)
    requires SortedBy(s, le)
    ensures SortedBy(Insert(x, s, le), le)
  {
    if s == [] || le(x, s[0]) {
      var r := [x] + s;
      forall i, j | 0 <= i < j < |r| ensures le(r[i], r[j]) {
        if i == 0 && j > 1 {
          assert le(s[0], s[j - 1]);
        }
      }
    } else {
      InsertSorted(x, s[1..], le);
      var t := Insert(x, s[1..], le);
      var r := [s[0]] + t;
      assert le(s[0], x);
      forall k | 0 <= k < |t| ensures le(s[0], t[k]) {
        assert t[k] in multiset(t);
        assert t[k] == x || t[k] in multiset(s[1..]);
        if t[k] != x {
          assert t[k] in s[1..];
          var m :| 0 <= m < |s[1..]| && s[1..][m] == t[k];
          assert s[m + 1] == t[k];
        }
      }
      forall i, j | 0 <= i < j < |r| ensures le(r[i], r[j]) {
        if i == 0 {
          assert r[j] == t[j - 1];
        } else {
          assert r[i] == t[i - 1] && r[j] == t[j - 1];
        }
      }
    }
  }

  /**
   * Stable sort by insertion: the behaviour of Array.prototype.sort (stable
   * since ES2019) with a comparator consistent with `le`.
   */
  function SortBy<T>(s: seq<T>, le: (T, T) -> bool): (r: seq<T>)
    ensures |r| == |s|
    ensures multiset(r) == multiset(s)
  {
    if s == [] then []
    else
      assert s == [s[0]] + s[1..];
      Insert(s[0], SortBy(s[1..], le), le)
  }

  /** A sort by a consistent comparator yields a sorted permutation. */
  lemma {:induction false} SortBySorted<T(!new)>(s: seq<T>, le: (T, T) -> bool)
    requires TotalPreorder(le)
    ensures SortedBy(SortBy(s, le), le)
    ensures multiset(SortBy(s, le)) == multiset(s)
  {
    if s != [] {
      SortBySorted(s[1..], le);
      InsertSorted(s[0], SortBy(s[1..], le), le);
    }
  }
}

=== FILE: storage.dfy ===
/**
 * The progress snapshot and its transitions: the study streak, the sakura
 * bloom counter, review recording, the flashcard section, and the load-time
 * migration of a snapshot saved by an older version.
 *
 * "Today" is a day number and "now" a timestamp, both passed in.
 */
module Storage {
  import opened Prelude
  import opened Scheduler
  import Leitner
  import DueSelection
  import GroupKey

  /** The blooms a tree needs for full bloom. */
  const FullBloomThreshold: int := 11

  datatype Sakura = Sakura(totalBlooms: int, currentTreeBlooms: int, fullBloomCount: int, fullBloomThreshold: int)

  datatype Streak = Streak(currentStreak: int, lastActiveDate: Option<Day>, longestStreak: int)

  datatype FlashcardStats = FlashcardStats(totalCorrect: int, totalSeen: int, bestCombo: int, masteredCount: int)

  datatype Flashcards = Flashcards(boxes: Leitner.Boxes, sessionCount: int, stats: FlashcardStats)

  datatype Progress = Progress(
    reviews: map<string, ReviewRecord>,
    sakura: Sakura,
    streak: Streak,
    flashcards: Flashcards)

  const DefaultFlashcards: Flashcards := Flashcards(map[], 0, FlashcardStats(0, 0, 0, 0))

  const DefaultProgress: Progress :=
    Progress(map[], Sakura(0, 0, 0, FullBloomThreshold), Streak(0, None, 0), DefaultFlashcards)

  // ---------------------------------------------------------------------
  // Streak

  /** updateStreak on day `today`. */
  function UpdateStreak(p: Progress, today: Day): (r: Progress)
    ensures p.streak.lastActiveDate == Some(today) ==> r == p
    ensures p.streak.lastActiveDate != Some(today) ==>
              && r.streak.lastActiveDate == Some(today)
              && r.streak.currentStreak == (if p.streak.lastActiveDate == Some(today - 1) then p.streak.currentStreak + 1 else 1)
              && r.streak.longestStreak == Max(p.streak.longestStreak, r.streak.currentStreak)
    ensures r.(streak := p.streak) == p
  {
    var streak := p.streak;
    if streak.lastActiveDate == Some(today) then p
    else
      var newStreak := if streak.lastActiveDate == Some(today - 1) then streak.currentStreak + 1 else 1;
      p.(streak := Streak(newStreak, Some(today), Max(streak.longestStreak, newStreak)))
  }

  predicate StreakValid(s: Streak)
  {
    0 <= s.currentStreak <= s.longestStreak
  }

  /** A second update on the same day changes nothing; the longest streak never drops and stays at least the current one. */
  lemma UpdateStreakFacts(p: Progress, today: Day)
    ensures UpdateStreak(UpdateStreak(p, today), today) == UpdateStreak(p, today)
    ensures UpdateStreak(p, today).streak.longestStreak >= p.streak.longestStreak
    ensures StreakValid(p.streak) ==> StreakValid(UpdateStreak(p, today).streak)
  {
  }

  /** Being active on the days first, first + 1, ..., first + n - 1. */
  function ActiveDays(p: Progress, first: Day, n: nat): Progress
  {
    if n == 0 then p else UpdateStreak(ActiveDays(p, first, n - 1), first + n - 1)
  }

  /** Continuing a streak for n consecutive days lengthens it by n. */
  lemma {:induction false} ConsecutiveDays(p: Progress, first: Day, n: nat)
    requires p.streak.lastActiveDate == Some(first - 1)
    ensures ActiveDays(p, first, n).streak.currentStreak == p.streak.currentStreak + n
    ensures ActiveDays(p, first, n).streak.lastActiveDate == Some(first + n - 1)
  {
    if n > 0 {
      ConsecutiveDays(p, first, n - 1);
    }
  }

  // ---------------------------------------------------------------------
  // Sakura blooms

  /** addBloom: one more bloom; the tree rolls over into a full bloom at the threshold. */
  function AddBloom(p: Progress): (r: Progress)
    ensures r.sakura.totalBlooms == p.sakura.totalBlooms + 1
    ensures r.sakura.fullBloomThreshold == p.sakura.fullBloomThreshold
    ensures p.sakura.currentTreeBlooms + 1 >= p.sakura.fullBloomThreshold ==>
              r.sakura.currentTreeBlooms == 0 && r.sakura.fullBloomCount == p.sakura.fullBloomCount + 1
    ensures p.sakura.currentTreeBlooms + 1 < p.sakura.fullBloomThreshold ==>
              r.sakura.currentTreeBlooms == p.sakura.currentTreeBlooms + 1 && r.sakura.fullBloomCount == p.sakura.fullBloomCount
    ensures r.(sakura := p.sakura) == p
  {
    var sakura := p.sakura;
    var newCurrentBlooms := sakura.currentTreeBlooms + 1;
    var isFullBloom := newCurrentBlooms >= sakura.fullBloomThreshold;
    p.(sakura := sakura.(
      totalBlooms := sakura.totalBlooms + 1,
      currentTreeBlooms := if isFullBloom then 0 else newCurrentBlooms,
      fullBloomCount := if isFullBloom then sakura.fullBloomCount + 1 else sakura.fullBloomCount))
  }

  /** The blooms counted by the finished trees and the current one. */
  function CountedBlooms(s: Sakura): int
  {
    s.fullBloomCount * s.fullBloomThreshold + s.currentTreeBlooms
  }

  /** The current tree stays below the threshold, and every bloom is counted exactly once. */
  lemma AddBloomKeepsTree(p: Progress)
    requires 0 <= p.sakura.currentTreeBlooms < p.sakura.fullBloomThreshold
    ensures 0 <= AddBloom(p).sakura.currentTreeBlooms < AddBloom(p).sakura.fullBloomThreshold
    ensures CountedBlooms(AddBloom(p).sakura) == CountedBlooms(p.sakura) + 1
  {
    var s, s' := p.sakura, AddBloom(p).sakura;
    if s.currentTreeBlooms + 1 >= s.fullBloomThreshold {
      assert s'.fullBloomCount * s.fullBloomThreshold == s.fullBloomCount * s.fullBloomThreshold + s.fullBloomThreshold;
    }
  }

  /** n blooms in a row. */
  function AddBlooms(p: Progress, n: nat): Progress
  {
    if n == 0 then p else AddBloom(AddBlooms(p, n - 1))
  }

  /** After n blooms the total has grown by n and the trees account for all n of them. */
  lemma {:induction false} AddBloomsAccounting(p: Progress, n: nat)
    requires 0 <= p.sakura.currentTreeBlooms < p.sakura.fullBloomThreshold
    ensures AddBlooms(p, n).sakura.totalBlooms == p.sakura.totalBlooms + n
    ensures AddBlooms(p, n).sakura.fullBloomThreshold == p.sakura.fullBloomThreshold
    ensures 0 <= AddBlooms(p, n).sakura.currentTreeBlooms < p.sakura.fullBloomThreshold
    ensures CountedBlooms(AddBlooms(p, n).sakura) == CountedBlooms(p.sakura) + n
    ensures AddBlooms(p, n).(sakura := p.sakura) == p
  {
    if n > 0 {
      AddBloomsAccounting(p, n - 1);
      AddBloomKeepsTree(AddBlooms(p, n - 1));
    }
  }

  // ---------------------------------------------------------------------
  // Reviews

  /** The scheduling state a review starts from: the stored one, or {2.50, 0, 0}. */
  function PriorState(p: Progress, problemId: string): SchedulingState
  {
    if problemId in p.reviews then p.reviews[problemId].State() else Fresh
  }

  /** The history a review appends to: the stored one, or empty. */
  function PriorHistory(p: Progress, problemId: string): seq<HistoryEntry>
  {
    if problemId in p.reviews then p.reviews[problemId].history else []
  }

  /** recordReview: reschedule the problem and append one history entry, at timestamp `now` on day `today`. */
  function RecordReview(p: Progress, problemId: string, quality: int, today: Day, now: Timestamp): (r: Progress)
    ensures r.reviews.Keys == p.reviews.Keys + {problemId}
    ensures r.reviews[problemId].history == PriorHistory(p, problemId) + [HistoryEntry(now, quality, quality >= 3)]
    ensures r.reviews[problemId].lastReviewDate == now
    ensures r.reviews[problemId].State() == StateOf(CalculateNextReview(PriorState(p, problemId), quality, today))
    ensures r.reviews[problemId].nextReviewDate == CalculateNextReview(PriorState(p, problemId), quality, today).nextReviewDate
    ensures forall id :: id in p.reviews && id != problemId ==> r.reviews[id] == p.reviews[id]
    ensures r.(reviews := p.reviews) == p
  {
    var current := PriorState(p, problemId);
    var updated := CalculateNextReview(current, quality, today);
    var history := PriorHistory(p, problemId) + [HistoryEntry(now, quality, quality >= 3)];
    p.(reviews := p.reviews[problemId := ReviewRecord(
      updated.easeFactor, updated.interval, updated.repetitions, updated.nextReviewDate, now, history)])
  }

  /** Every stored scheduling state is valid. */
  predicate ReviewsValid(p: Progress)
  {
    forall id :: id in p.reviews ==> ValidState(p.reviews[id].State())
  }

  /** Recording keeps every state valid and leaves the problem not due until after today. */
  lemma RecordReviewSchedules(p: Progress, problemId: string, quality: int, today: Day, now: Timestamp, problem: GroupKey.Problem)
    requires ReviewsValid(p)
    requires problem.id == problemId
    ensures ReviewsValid(RecordReview(p, problemId, quality, today, now))
    ensures !DueSelection.IsDue(problem, RecordReview(p, problemId, quality, today, now).reviews, today)
    ensures RecordReview(p, problemId, quality, today, now).reviews[problemId].nextReviewDate > today
  {
    NextReviewIsLater(PriorState(p, problemId), quality, today);
  }

  /** The history grows by one entry, counted correct exactly when quality is 3 or more. */
  lemma RecordReviewAccuracy(p: Progress, problemId: string, quality: int, today: Day, now: Timestamp)
    ensures var h := RecordReview(p, problemId, quality, today, now).reviews[problemId].history;
      && |h| == |PriorHistory(p, problemId)| + 1
      && DueSelection.CountCorrect(h) == DueSelection.CountCorrect(PriorHistory(p, problemId)) + (if quality >= 3 then 1 else 0)
  {
    var h := RecordReview(p, problemId, quality, today, now).reviews[problemId].history;
    assert h[..|h| - 1] == PriorHistory(p, problemId);
  }

  // ---------------------------------------------------------------------
  // Flashcards

  /** incrementFlashcardSession. */
  function IncrementFlashcardSession(p: Progress): (r: Progress)
    ensures r.flashcards.sessionCount == p.flashcards.sessionCount + 1
    ensures r.flashcards.boxes == p.flashcards.boxes && r.flashcards.stats == p.flashcards.stats
    ensures r.(flashcards := p.flashcards) == p
  {
    p.(flashcards := p.flashcards.(sessionCount := p.flashcards.sessionCount + 1))
  }

  /** advanceFlashcard: the card moves one box up (an unseen card counts as box 1), capped at 5. */
  function AdvanceFlashcard(p: Progress, cardId: string): (r: Progress)
    ensures r.flashcards.boxes.Keys == p.flashcards.boxes.Keys + {cardId}
    ensures r.flashcards.boxes[cardId].lastSeenSession == p.flashcards.sessionCount
    ensures r.flashcards.boxes[cardId].box ==
              if cardId in p.flashcards.boxes then Min(p.flashcards.boxes[cardId].box + 1, 5) else 2
    ensures forall k :: k in p.flashcards.boxes && k != cardId ==> r.flashcards.boxes[k] == p.flashcards.boxes[k]
    ensures r.flashcards.sessionCount == p.flashcards.sessionCount && r.flashcards.stats == p.flashcards.stats
    ensures r.(flashcards := p.flashcards) == p
  {
    var flashcards := p.flashcards;
    var current := if cardId in flashcards.boxes then flashcards.boxes[cardId]
                   else Leitner.BoxInfo(1, flashcards.sessionCount);
    var newBox := Min(current.box + 1, 5);
    p.(flashcards := flashcards.(boxes := flashcards.boxes[cardId := Leitner.BoxInfo(newBox, flashcards.sessionCount)]))
  }

  /** demoteFlashcard: the card goes back to box 1. */
  function DemoteFlashcard(p: Progress, cardId: string): (r: Progress)
    ensures r.flashcards.boxes.Keys == p.flashcards.boxes.Keys + {cardId}
    ensures r.flashcards.boxes[cardId] == Leitner.BoxInfo(1, p.flashcards.sessionCount)
    ensures forall k :: k in p.flashcards.boxes && k != cardId ==> r.flashcards.boxes[k] == p.flashcards.boxes[k]
    ensures r.flashcards.sessionCount == p.flashcards.sessionCount && r.flashcards.stats == p.flashcards.stats
    ensures r.(flashcards := p.flashcards) == p
  {
    var flashcards := p.flashcards;
    p.(flashcards := flashcards.(boxes := flashcards.boxes[cardId := Leitner.BoxInfo(1, flashcards.sessionCount)]))
  }

  /** The snapshot's box moves agree with the Leitner helpers at the current session. */
  lemma FlashcardMovesAgree(p: Progress, cardId: string)
    ensures AdvanceFlashcard(p, cardId).flashcards.boxes ==
            Leitner.AdvanceCard(p.flashcards.boxes, cardId, p.flashcards.sessionCount)
    ensures DemoteFlashcard(p, cardId).flashcards.boxes ==
            Leitner.DemoteCard(p.flashcards.boxes, cardId, p.flashcards.sessionCount)
  {
  }

  /** A card demoted in this session is due in the next one. */
  lemma DemotedDueAfterNextSession(p: Progress, cardId: string)
    ensures var q := IncrementFlashcardSession(DemoteFlashcard(p, cardId));
      Leitner.IsCardDue(Leitner.Card(cardId), q.flashcards.boxes, q.flashcards.sessionCount)
  {
    Leitner.DemotedDueNextSession(p.flashcards.boxes, cardId, p.flashcards.sessionCount);
  }

  /** updateFlashcardStats: add the session's counts, keep the best combo, take the new mastered count. */
  function UpdateFlashcardStats(p: Progress, session: FlashcardStats): (r: Progress)
    ensures r.flashcards.stats.totalCorrect == p.flashcards.stats.totalCorrect + session.totalCorrect
    ensures r.flashcards.stats.totalSeen == p.flashcards.stats.totalSeen + session.totalSeen
    ensures r.flashcards.stats.bestCombo >= p.flashcards.stats.bestCombo
    ensures r.flashcards.stats.bestCombo >= session.bestCombo
    ensures r.flashcards.stats.bestCombo == p.flashcards.stats.bestCombo || r.flashcards.stats.bestCombo == session.bestCombo
    ensures r.flashcards.stats.masteredCount == session.masteredCount
    ensures r.flashcards.boxes == p.flashcards.boxes && r.flashcards.sessionCount == p.flashcards.sessionCount
    ensures r.(flashcards := p.flashcards) == p
  {
    var stats := p.flashcards.stats;
    p.(flashcards := p.flashcards.(stats := FlashcardStats(
      stats.totalCorrect + session.totalCorrect,
      stats.totalSeen + session.totalSeen,
      Max(stats.bestCombo, session.bestCombo),
      session.masteredCount)))
  }

  // ---------------------------------------------------------------------
  // Load-time migration

  /** The sakura section after the threshold migration, in closed form. */
  function Rollover(s: Sakura): (r: Sakura)
    ensures r.fullBloomThreshold == FullBloomThreshold && r.totalBlooms == s.totalBlooms
    ensures r.currentTreeBlooms < FullBloomThreshold
    ensures r.fullBloomCount >= s.fullBloomCount
    ensures s.currentTreeBlooms == r.currentTreeBlooms + FullBloomThreshold * (r.fullBloomCount - s.fullBloomCount)
    ensures s.currentTreeBlooms >= 0 ==> r.currentTreeBlooms >= 0
    ensures s.currentTreeBlooms < FullBloomThreshold ==> r.currentTreeBlooms == s.currentTreeBlooms
  {
    if s.currentTreeBlooms < FullBloomThreshold then s.(fullBloomThreshold := FullBloomThreshold)
    else s.(fullBloomThreshold := FullBloomThreshold,
            currentTreeBlooms := s.currentTreeBlooms % FullBloomThreshold,
            fullBloomCount := s.fullBloomCount + s.currentTreeBlooms / FullBloomThreshold)
  }

  /** A snapshot as parsed from storage, before migration; older snapshots may lack sections. */
  class ParsedProgress {
    var reviews: map<string, ReviewRecord>
    var sakura: Option<Sakura>
    var streak: Streak
    var flashcards: Option<Flashcards>

    constructor (reviews: map<string, ReviewRecord>, sakura: Option<Sakura>, streak: Streak, flashcards: Option<Flashcards>)
      ensures this.reviews == reviews && this.sakura == sakura
      ensures this.streak == streak && this.flashcards == flashcards
    {
      this.reviews := reviews;
      this.sakura := sakura;
      this.streak := streak;
      this.flashcards := flashcards;
    }

    /**
     * The migration step of loadProgress: apply the current threshold,
     * turning each full threshold of the current tree into a full bloom,
     * and give a snapshot without flashcards the default section.
     */
    method Migrate()
      modifies this
      ensures sakura == if old(sakura).Some? then Some(Rollover(old(sakura).value)) else None
      ensures flashcards == if old(flashcards).Some? then old(flashcards) else Some(DefaultFlashcards)
      ensures reviews == old(reviews) && streak == old(streak)
    {
      if sakura.Some? {
        var newThreshold := FullBloomThreshold;
        var s := sakura.value.(fullBloomThreshold := newThreshold);
        ghost var start := s;
        while s.currentTreeBlooms >= newThreshold
          invariant s.fullBloomThreshold == newThreshold && s.totalBlooms == start.totalBlooms
          invariant s.fullBloomCount >= start.fullBloomCount
          invariant start.currentTreeBlooms == s.currentTreeBlooms + newThreshold * (s.fullBloomCount - start.fullBloomCount)
          invariant start.currentTreeBlooms >= newThreshold ==> s.currentTreeBlooms >= 0
          invariant start.currentTreeBlooms < newThreshold ==> s == start
          decreases s.currentTreeBlooms
        {
          s := s.(currentTreeBlooms := s.currentTreeBlooms - newThreshold, fullBloomCount := s.fullBloomCount + 1);
        }
        sakura := Some(s);
      }
      if flashcards.None? {
        flashcards := Some(DefaultFlashcards);
      }
    }
  }
}
